=== FILE: README.md ===
# AI web-copy generator: prompt building, word-limit trimming and dispatch

The system is a small Streamlit page. The user picks a page type, types a
description of their website and chooses a word count. The page builds a
prompt from a template, sends it to a Gemini model, and shows the answer
trimmed to the word count. This project models the string logic underneath
in `main.py` and proves what it does:

- `generate_prompt` (`main.py:19-47`) looks up seven f-string templates and
  falls back to a fixed "Invalid page type…" message for every other key.
- The post-processing half of `generate_copy_with_gemini`
  (`main.py:63-70`) reads the word limit back out of the prompt text, strips
  the answer, and cuts it down to that many words when it is longer.
- The button handler (`main.py:119-131`) refuses a blank description, shows
  any prompt that contains `"Invalid"` as an error, and otherwise generates.

Everything in the core is pure, so the model is made of functions and
lemmas. The Python built-ins the core relies on are modelled as Python
defines them, in two helper modules, apart from the limits listed under
"## Left out":

- `PyStr` has `str.find`, `in`, `str.split(sep)`, `sep.join`, `str.strip()`
  and `str.split()`. Whitespace is the set of characters for which
  `str.isspace()` holds.
- `PyInt` has `str(n)` and `int(s)`. `int` accepts surrounding whitespace,
  a sign, and ASCII digits with single underscores between them. Its
  whitespace is the `str.isspace()` set without the separators U+001C to
  U+001F: `int()` does not skip those, so `int("\x1c5")` is a `ValueError`
  although `"\x1c5".strip()` is `"5"`.

Files:

- `wrappers.dfy`: `Option` and `Result`.
- `pystr.dfy`, `pyint.dfy`: the built-ins.
- `prompts.dfy`: the templates and `generate_prompt`.
- `generation.dfy`: the limit parse and the trim.
- `app.dfy`: the handler.

Each of the seven templates is a `Template(lead, tail, suffix)` rendered as
`lead + "(around " + str(n) + " words)" + tail + description + suffix`. The
three fields hold the template text verbatim. The model answer is a
parameter (`responseText`), and the exceptions of main.py:65 are the error
value `LimitError`: `IndexError` when the split has no piece `[1]`, and
`ValueError` when `int` rejects the text.

Two details of the code shape the model, and both are kept as written:

- The home template's key is `"Home "`, with a trailing space
  (`main.py:32`), while the select box offers `"Home"` (`main.py:83`). So
  choosing Home gets the fallback message.
- An unknown page type is detected by searching the whole prompt for the
  substring `"Invalid"` (`main.py:126`), and the prompt holds the user's
  description verbatim. So a description that mentions "Invalid" is refused
  too.

## Model

| member | source | states |
|---|---|---|
| PyStr.Find | main.py:65 | the index returned is an occurrence of the pattern and no occurrence starts earlier; `None` means no occurrence at all |
| PyStr.ContainsIffOccurs | main.py:126 | `pat in s` holds exactly when `pat` occurs somewhere in `s` |
| PyStr.Split | main.py:65 | `s.split(sep)` always has at least one piece, so taking piece `[0]` never raises |
| PyStr.SplitSinglePiece | main.py:65 | `s.split(sep)` has a single piece exactly when `sep` does not occur in `s`, which is when indexing `[1]` raises |
| PyStr.SplitJoin | main.py:65 | joining the pieces of `s.split(sep)` with `sep` gives back `s` |
| PyStr.SplitPiecesLackSeparator | main.py:65 | no piece of `s.split(sep)` contains `sep` |
| PyStr.SplitAtFirst | main.py:65 | when the first `sep` follows `x`, the split is `x` followed by the split of what comes after that `sep` |
| PyStr.Join | main.py:68 | `sep.join(parts)` opens with the first part |
| PyStr.Strip | main.py:63 | `strip()` is empty exactly when the text is all whitespace, and otherwise begins and ends with a non-space character |
| PyStr.StripRemovesOuterWhitespace | main.py:63 | the stripped text is a contiguous slice of the original, and everything cut from either end is whitespace |
| PyStr.StripIdempotent | main.py:63 | stripping twice is stripping once |
| PyStr.Words | main.py:66 | every item of `split()` is a non-empty run without whitespace |
| PyStr.WordsNone | main.py:66 | `split()` is empty exactly when the text is all whitespace |
| PyStr.WordsAtSpace | main.py:66 | a whitespace character separates words: the words of `x + c + y` are the words of `x` followed by the words of `y` |
| PyStr.WordsStrip | main.py:63-66 | stripping the answer does not change its words |
| PyStr.WordsOfJoin | main.py:66-68 | words joined with single spaces split back into the same words |
| PyStr.JoinOfWordsIsStripped | main.py:68 | words joined with single spaces have no outer whitespace |
| PyInt.IntToString | main.py:32-44 | `str(n)` is a leading `-` exactly when `n` is negative, followed by non-empty decimal digits without a leading zero |
| PyInt.ParseIntToString | main.py:65 | `int(str(n)) == n` for every integer `n` |
| PyInt.ParseInt | main.py:65 | `int` of text succeeds only when the text holds a decimal digit |
| PyInt.TrimLeft | main.py:65 | `int` skips exactly the leading run of its whitespace: the rest is a suffix that is empty or starts with a character it does not skip |
| PyInt.TrimRight | main.py:65 | `int` skips exactly the trailing run of its whitespace: the rest is a prefix that is empty or ends with a character it does not skip |
| PyInt.Trim | main.py:65 | the text `int` reads is empty or begins and ends with a character `int` does not skip |
| PyInt.TrimWithin | main.py:65 | every character of the text `int` reads comes from its argument |
| PyInt.ParseIntSkipsSpace | main.py:65 | a leading whitespace character that `int` skips, such as U+00A0, does not change its result |
| PyInt.ParseIntRejectsSeparator | main.py:65 | a leading separator U+001C to U+001F makes `int` fail, whatever follows |
| PyInt.IntToStringTrimmed | main.py:32 | `str(n)` has no whitespace around it for `int` to skip |
| Prompts.GeneratePrompt | main.py:19-47 | the fallback message comes back exactly for the page types that are not keys; no template renders to it |
| Prompts.Render | main.py:32-44 | a rendered template opens with its fixed text up to and including `"(around "` |
| Prompts.RenderIsNotMessage | main.py:32-47 | a template whose text does not open with `I` never renders to the fallback message, whatever the description and word count |
| Prompts.LeadClear | main.py:32-44 | a template lead lacking one letter of `"around "` has no `"around "` before its own `"(around "` |
| Prompts.FaqsWellFormed | main.py:44 | the FAQ template, which uses every letter of `"around "`, still has its first `"around "` right before the word count |
| Prompts.TemplatesWellFormed | main.py:32-44 | in each of the seven templates the first `"around "` is the one before the word count |
| Prompts.RenderContents | main.py:32-44 | a rendered template contains `"(around " + str(n) + " words)"`, and contains the description verbatim |
| Prompts.PromptForKnownPage | main.py:31-47 | for each of the seven keys the prompt opens with that key's prefix, carries `"(around " + str(n) + " words)"`, and contains the description verbatim |
| Prompts.HomeOptionFallsThrough | main.py:31-47 | `"Home"`, an option of the select box (main.py:83), is not the key `"Home "`, so its prompt is the fallback message |
| Prompts.MessageLacksAround | main.py:47 | the fallback message contains no `"around "` |
| Prompts.MessageSaysInvalid | main.py:47 | the fallback message contains `"Invalid"` |
| Prompts.TemplatesFramed | main.py:32-44 | in each of the seven templates the text before the description has no capital `I` and ends with a space, and the text after it opens with a full stop |
| Prompts.RenderInvalidBetween | main.py:32-44 | a template framed that way renders to a prompt containing `"Invalid"` exactly when its description or its instructions contain it |
| Prompts.RenderInvalid | main.py:32-44 | for each page, the prompt contains `"Invalid"` exactly when the description or that page's instructions do |
| Prompts.ServicesInstructionsClear | main.py:40 | the Services instructions do not contain `"Invalid"` |
| Prompts.ServicesPromptInvalid | main.py:40 | the Services prompt contains `"Invalid"` exactly when the description does |
| Prompts.CorrectedKeysAreOptions | main.py:81-84 | the keys of the corrected dictionary are exactly the select box's options |
| Prompts.GeneratePromptCorrected | main.py:31-47 | with the corrected keys the fallback message comes back exactly for the page types the select box does not offer |
| Prompts.CorrectedKeys | main.py:32 | the corrected dictionary differs from the original only by the Home key's spelling, and maps it to the same page |
| Prompts.CorrectedHome | main.py:32 | the corrected `"Home"` gets the template the original keyed `"Home "`, and `"Home "` now gets the fallback message |
| Prompts.CorrectedElsewhere | main.py:31-47 | every other page type gets the same prompt from the corrected and the original dictionary |
| Generation.WordLimit | main.py:65 | the parse raises `IndexError` exactly when the prompt has no `"around "` |
| Generation.SliceTo | main.py:68 | `xs[:k]` is a prefix of `xs` of length `min(k, len)`, and for negative `k` all but the last `-k` |
| Generation.TrimToLimit | main.py:63-70 | the post-processing fails exactly when the limit parse fails, and with the same error |
| Generation.SecondPieceStartsWithCount | main.py:65 | in a rendered template the piece after the first `"around "` starts with `str(n) + " words"` |
| Generation.CountPieceReadsBack | main.py:65 | a piece starting with `str(n) + " words"` parses to `n` |
| Generation.RenderedLimitRoundTrip | main.py:65 | the limit read back from a rendered well-formed template is the word count it was rendered with, whatever the description contains |
| Generation.PromptLimitRoundTrip | main.py:65 | for each of the seven keys, any description and any integer word count, the parsed limit equals the word count |
| Generation.MessageHasNoLimit | main.py:65 | parsing the fallback message raises `IndexError` |
| Generation.LimitWithoutDigits | main.py:65 | when nothing after the first `"around "` is a digit, the parse raises `ValueError` |
| Generation.Truncate | main.py:66-68 | the words of the trimmed text are `words[:limit]` for every limit, and text at or under the limit comes back untouched |
| Generation.TruncateOverLimit | main.py:66-68 | over the limit the text becomes the first `limit` words joined by single spaces, with exactly `limit` words |
| Generation.TruncateKeepsLeadingWords | main.py:66-68 | for a limit of at least 0, the trimmed text's words are the first `min(len(words), limit)` words |
| Generation.TruncateIdempotent | main.py:66-68 | trimming trimmed text to the same limit changes nothing |
| Generation.TruncateStripped | main.py:63-68 | trimming stripped text gives stripped text |
| Generation.TrimResultStripped | main.py:63-70 | the copy returned has no outer whitespace |
| Generation.TrimUnderLimit | main.py:63-70 | at or under the limit the copy is exactly the stripped answer, with its inner whitespace and newlines kept |
| Generation.TrimOverLimit | main.py:66-68 | over the limit the copy is the first `limit` words joined by single spaces, with exactly `limit` words |
| Generation.TrimKeepsLeadingWords | main.py:63-70 | for a limit of at least 0, the copy's words are the answer's first `min(len(words), limit)` words |
| Generation.TrimIdempotent | main.py:63-70 | post-processing the copy again with the same prompt returns the copy unchanged |
| App.Dispatch | main.py:120-131 | a blank description is refused first; otherwise the prompt is `generate_prompt`'s, and it is shown as an error exactly when it contains `"Invalid"` |
| App.HandleRequest | main.py:120-131 | the handler never lets the limit parse raise, and shows copy exactly when the dispatch sends the prompt to the model |
| App.KnownPageDispatch | main.py:120-131 | for a key and a description that is not blank, the prompt goes to the model exactly when neither the description nor that page's instructions contain `"Invalid"` |
| App.ServicesDispatch | main.py:120-131 | Services with a description that is not blank reaches the model exactly when the description does not contain `"Invalid"` |
| App.UnknownPageRejected | main.py:124-127 | a page type that is not a key, with a description that is not blank, gets the fallback message as its error |
| App.GenerateOnlyForKnownPages | main.py:126-131 | only the seven keys reach the model, and their prompt's limit parses back to the word count |
| App.InvalidInDescriptionRejected | main.py:124-127 | for a known key, a description that contains `"Invalid"` makes the whole prompt be shown as an error |
| App.HomeOptionRejected | main.py:120-127 | choosing `"Home"` with a description that is not blank shows the fallback message as an error |
| App.CopyWithinWordCount | main.py:120-131 | for word counts in the number input's range 50..2000 (main.py:91-96), the copy shown never has more words than asked for, and its words are the answer's leading words; a short enough answer is shown whole, stripped |
| App.CorrectedDispatchServesEveryOption | main.py:120-131 | with the corrected keys and no substring test, every select-box option with a description that is not blank reaches the model, with a prompt that contains the description and parses back to the word count |
| App.DispatchCorrected | main.py:120-131 | the corrected dispatch refuses exactly the blank descriptions first, then sends the prompt to the model exactly for the select box's options, and shows the fallback message for anything else |

## Left out

- The Gemini call and model construction (`main.py:60-61`) are not modelled. The answer text is a parameter. A failure of the call (network, quota, credentials) is not modelled either.
- Environment and credential loading and `genai.configure` (`main.py:3-10`) are process-level I/O.
- The Streamlit page setup, widgets, CSS, spinner and result display (`main.py:13-16`, `main.py:76-117`, `main.py:132-133`) are UI. Only the word-count bounds 50..2000 of the number input are kept, as a precondition of `App.CopyWithinWordCount`.
- The model name constant (`main.py:130`) only selects the remote model.
- PyInt.IntToString: has no digit limit. Python 3.11 and later (and the 2022 security releases of 3.7 to 3.10) raise `ValueError` in `str(n)` and `int(s)` beyond 4300 digits, so `generate_prompt` would raise at main.py:32 for such a word count, whatever the page type. The number input caps the count at 2000 (main.py:94), so this cannot be reached from the page. PyInt.ParseIntToString and Generation.PromptLimitRoundTrip hold for every integer only in the model, for the same reason.
- PyInt.ParseInt: accepts ASCII digits only. Python's `int` also accepts other Unicode decimal digits, which `str(n)` never produces.
- PyStr.IsSpace: the whitespace set is that of `str.isspace()` for the characters listed. Python's `split()` and `strip()` use that same set.
- Generation.TruncateKeepsLeadingWords: stated for limits of at least 0, because a negative limit cannot come from the number input. Generation.Truncate covers every limit with Python's negative slice.
- Generation.TruncateIdempotent: stated for limits of at least 0, for the same reason.
- Generation.TrimKeepsLeadingWords: stated for limits of at least 0, for the same reason.
- Generation.TrimIdempotent: stated for limits of at least 0, for the same reason.
- App.KnownPageDispatch: keeps "that page's instructions do not contain `"Invalid"`" as a condition instead of proving it for all seven pages. It is proved for Services only (App.ServicesDispatch). The instructions are about 4,500 characters of fixed prose, and refuting a letter in a string literal costs the solver time that grows faster than the literal's length, so checking the other six pages would cost much more than the rest of the model. Prompts.RenderInvalid does prove that no other part of a template can form the word.

## Findings

| source | as written | input that shows it | evidently intended | confidence | as-written member | corrected member |
|---|---|---|---|---|---|---|
| main.py:32 | the home template's key is `"Home "` with a trailing space, while the select box offers `"Home"` | page type `"Home"`, description `"a bakery"`, word count 300: the prompt is the fallback message and the user sees it as an error | `"Home"` selects the home template | not executed | App.HomeOptionRejected | App.CorrectedDispatchServesEveryOption |
| main.py:126 | an invalid page type is detected by searching the whole prompt for `"Invalid"`, and the prompt includes the user's description | page type `"Products"`, description `"Invalid-proof phone cases"`: the whole prompt is shown as an error and nothing is generated | only the fallback message for an unknown page type is refused | not executed | App.InvalidInDescriptionRejected | App.CorrectedDispatchServesEveryOption |

=== FILE: app.dfy ===
/**
 * What pressing "Generate Web Copy" does (main.py:119-133), as decisions on
 * the inputs: a blank description is refused, a prompt that contains
 * `"Invalid"` is shown as an error, and anything else goes to the model,
 * whose answer text is a parameter here.
 */
module App {
  import opened Wrappers
  import PyStr
  import Prompts
  import Generation

  /** The error shown for a blank description (main.py:121). */
  const MissingDescriptionMessage := "Please provide a description of your website."

  /** The branch main.py:120-131 takes. */
  datatype Action =
    | RejectBlank             // st.error about the missing description
    | RejectPrompt(prompt: string)  // st.error(prompt)
    | Generate(prompt: string)      // generate_copy_with_gemini(model_name, prompt)

  /** The branch taken for a page type, a description and a word count. */
  function Dispatch(pageType: string, description: string, wordCount: int): (a: Action)
    ensures a.RejectBlank? <==> forall i :: 0 <= i < |description| ==> PyStr.IsSpace(description[i])
    ensures !a.RejectBlank? ==> a.prompt == Prompts.GeneratePrompt(pageType, description, wordCount)
    ensures a.RejectPrompt? <==> !a.RejectBlank? && PyStr.Contains(a.prompt, "Invalid")
  {
    if PyStr.Strip(description) == [] then RejectBlank
    else
      var prompt := Prompts.GeneratePrompt(pageType, description, wordCount);
      if PyStr.Contains(prompt, "Invalid") then RejectPrompt(prompt) else Generate(prompt)
  }

  /** What the user ends up with. */
  datatype Outcome =
    | ErrorShown(message: string)
    | CopyShown(copy: string)
    | Raised(error: Generation.LimitError)

  /** The whole handler, given the text the model answers with. It never
      lets the parse at main.py:65 raise: a prompt that gets past the
      `"Invalid"` test always carries a readable limit, so copy is shown
      exactly when the dispatch goes to the model. */
  function HandleRequest(pageType: string, description: string, wordCount: int, responseText: string): (r: Outcome)
    ensures !r.Raised?
    ensures r.CopyShown? <==> Dispatch(pageType, description, wordCount).Generate?
  {
    match Dispatch(pageType, description, wordCount)
    case RejectBlank => ErrorShown(MissingDescriptionMessage)
    case RejectPrompt(prompt) => ErrorShown(prompt)
    case Generate(prompt) =>
      GenerateOnlyForKnownPages(pageType, description, wordCount);
      match Generation.TrimToLimit(prompt, responseText)
      case Failure(e) => Raised(e)
      case Success(copy) => CopyShown(copy)
  }

  // ---------------------------------------------------------------------
  // Properties of the dispatch
  // ---------------------------------------------------------------------

  /** A page type that is not a key gets the fixed message as its error. */
  lemma UnknownPageRejected(pageType: string, description: string, wordCount: int)
    requires pageType !in Prompts.PageKeys
    requires !forall i :: 0 <= i < |description| ==> PyStr.IsSpace(description[i])
    ensures Dispatch(pageType, description, wordCount) == RejectPrompt(Prompts.InvalidPageTypeMessage)
  {
    Prompts.MessageSaysInvalid();
  }

  /** Only the seven keys reach the model, and the prompt they send carries
      the word count where the trimming reads it back. */
  lemma GenerateOnlyForKnownPages(pageType: string, description: string, wordCount: int)
    requires Dispatch(pageType, description, wordCount).Generate?
    ensures pageType in Prompts.PageKeys
    ensures Generation.WordLimit(Dispatch(pageType, description, wordCount).prompt) == Success(wordCount)
  {
    if pageType !in Prompts.PageKeys {
      Prompts.MessageSaysInvalid();
    } else {
      Generation.PromptLimitRoundTrip(pageType, description, wordCount);
    }
  }

  /** A description that mentions "Invalid" makes the prompt of a known page
      mention it too, so the whole prompt is shown as an error. */
  lemma InvalidInDescriptionRejected(pageType: string, description: string, wordCount: int)
    requires pageType in Prompts.PageKeys
    requires PyStr.Contains(description, "Invalid")
    ensures Dispatch(pageType, description, wordCount)
      == RejectPrompt(Prompts.GeneratePrompt(pageType, description, wordCount))
  {
    var i := PyStr.Find(description, "Invalid").value;
    assert description[i] == description[i..i + 7][0] == 'I';
    assert !PyStr.IsSpace(description[i]);
    KnownPageDispatch(pageType, description, wordCount);
  }

  /** For a key and a description that is not blank, the prompt goes to the
      model exactly when neither the description nor the key's instructions
      mention "Invalid": nothing else in a template can form the word. */
  lemma KnownPageDispatch(pageType: string, description: string, wordCount: int)
    requires pageType in Prompts.PageKeys
    requires !forall i :: 0 <= i < |description| ==> PyStr.IsSpace(description[i])
    ensures var instructions := Prompts.TemplateOf(Prompts.PageKeys[pageType]).suffix;
      Dispatch(pageType, description, wordCount).Generate?
      <==> !PyStr.Contains(description, "Invalid") && !PyStr.Contains(instructions, "Invalid")
  {
    Prompts.RenderInvalid(Prompts.PageKeys[pageType], description, wordCount);
  }

  /** The Services page reaches the model for every description that is not
      blank and does not mention "Invalid", and only for those. */
  lemma ServicesDispatch(description: string, wordCount: int)
    requires !forall i :: 0 <= i < |description| ==> PyStr.IsSpace(description[i])
    ensures Dispatch("Services", description, wordCount).Generate?
      <==> !PyStr.Contains(description, "Invalid")
  {
    Prompts.ServicesPromptInvalid(description, wordCount);
  }

  /** The select box's "Home" never reaches the model. */
  lemma HomeOptionRejected(description: string, wordCount: int)
    requires !forall i :: 0 <= i < |description| ==> PyStr.IsSpace(description[i])
    ensures "Home" in Prompts.PageTypeOptions
    ensures Dispatch("Home", description, wordCount) == RejectPrompt(Prompts.InvalidPageTypeMessage)
  {
    Prompts.HomeOptionFallsThrough(description, wordCount);
    UnknownPageRejected("Home", description, wordCount);
  }

  // ---------------------------------------------------------------------
  // Properties of the whole handler
  // ---------------------------------------------------------------------

  /** Within the select box's word counts (50 to 2000, main.py:91-96), the
      copy shown is the answer's first words, never more than asked for, and
      the whole stripped answer when it is short enough. */
  lemma CopyWithinWordCount(pageType: string, description: string, wordCount: int,
                            responseText: string, copy: string)
    requires 50 <= wordCount <= 2000
    requires HandleRequest(pageType, description, wordCount, responseText) == CopyShown(copy)
    ensures var words := PyStr.Words(responseText);
      && |PyStr.Words(copy)| <= wordCount
      && |PyStr.Words(copy)| <= |words|
      && PyStr.Words(copy) == words[..|PyStr.Words(copy)|]
      && (|words| <= wordCount ==> copy == PyStr.Strip(responseText))
  {
    var prompt := Dispatch(pageType, description, wordCount).prompt;
    GenerateOnlyForKnownPages(pageType, description, wordCount);
    assert copy == Generation.TrimToLimit(prompt, responseText).value;
    Generation.TrimKeepsLeadingWords(prompt, responseText, wordCount);
    if |PyStr.Words(responseText)| <= wordCount {
      Generation.TrimUnderLimit(prompt, responseText, wordCount);
    }
  }

  // ---------------------------------------------------------------------
  // Dispatch with the corrections
  // ---------------------------------------------------------------------

  /** The dispatch with the page type tested against the corrected keys
      instead of searching the prompt for "Invalid": a blank description is
      still refused first, every option of the select box then reaches the
      model, and any other page type gets the fixed message. */
  function DispatchCorrected(pageType: string, description: string, wordCount: int): (a: Action)
    ensures a.RejectBlank? <==> forall i :: 0 <= i < |description| ==> PyStr.IsSpace(description[i])
    ensures a.Generate? <==> !a.RejectBlank? && pageType in Prompts.PageTypeOptions
    ensures a.RejectPrompt? ==> a.prompt == Prompts.InvalidPageTypeMessage
  {
    Prompts.CorrectedKeysAreOptions();
    if PyStr.Strip(description) == [] then RejectBlank
    else if pageType !in Prompts.CorrectedPageKeys then RejectPrompt(Prompts.InvalidPageTypeMessage)
    else Generate(Prompts.GeneratePromptCorrected(pageType, description, wordCount))
  }

  /** Every option of the select box, with any description that is not
      blank (whatever words it uses), reaches the model with a prompt that
      holds the description and reads back the word count. */
  lemma CorrectedDispatchServesEveryOption(pageType: string, description: string, wordCount: int)
    requires pageType in Prompts.PageTypeOptions
    requires !forall i :: 0 <= i < |description| ==> PyStr.IsSpace(description[i])
    ensures DispatchCorrected(pageType, description, wordCount).Generate?
    ensures var prompt := DispatchCorrected(pageType, description, wordCount).prompt;
      && PyStr.Contains(prompt, description)
      && Generation.WordLimit(prompt) == Success(wordCount)
  {
    Prompts.CorrectedKeysAreOptions();
    var page := Prompts.CorrectedPageKeys[pageType];
    Prompts.TemplatesWellFormed(page);
    Prompts.RenderContents(Prompts.TemplateOf(page), description, wordCount);
    Generation.RenderedLimitRoundTrip(Prompts.TemplateOf(page), description, wordCount);
  }
}

=== FILE: generation.dfy ===
/**
 * The post-processing half of `generate_copy_with_gemini` (main.py:63-70):
 * the word limit is read back out of the prompt text, the model's answer is
 * stripped, and an answer with too many words is cut down to the limit.
 * The model call itself (main.py:60-61) is not modelled; its answer text is
 * a parameter.
 */
module Generation {
  import opened Wrappers
  import PyStr
  import PyInt
  import Prompts

  /** The two exceptions main.py:65 can raise: indexing `[1]` into a split
      with a single piece, and `int` of text that is not an integer. */
  datatype LimitError = IndexError | ValueError

  /** `int(prompt.split('around ')[1].split(' words')[0])`. */
  function WordLimit(prompt: string): (r: Result<int, LimitError>)
    ensures r == Failure(IndexError) <==> !PyStr.Contains(prompt, "around ")
  {
    PyStr.SplitSinglePiece(prompt, "around ");
    var pieces := PyStr.Split(prompt, "around ");
    if |pieces| < 2 then Failure(IndexError)
    else
      match PyInt.ParseInt(PyStr.Split(pieces[1], " words")[0])
      case None => Failure(ValueError)
      case Some(n) => Success(n)
  }

  /** Python's `xs[:k]`: the first `k` elements, or for a negative `k` all
      but the last `-k`. */
  function SliceTo<T>(xs: seq<T>, k: int): (r: seq<T>)
    ensures |r| <= |xs| && r == xs[..|r|]
    ensures 0 <= k ==> |r| == if k < |xs| then k else |xs|
    ensures k < 0 ==> |r| == if -k < |xs| then |xs| + k else 0
  {
    if 0 <= k then (if k < |xs| then xs[..k] else xs)
    else if -k < |xs| then xs[..|xs| + k] else []
  }

  /** main.py:66-68 on already stripped text: keep it when it has at most
      `limit` words, otherwise join its first `limit` words with single
      spaces. Either way its words are `words[:limit]`, for every limit (a
      negative one drops words from the end, as Python's slice does), and at
      or under the limit the text comes back untouched, inner whitespace
      and line breaks included. */
  function Truncate(text: string, limit: int): (r: string)
    ensures PyStr.Words(r) == SliceTo(PyStr.Words(text), limit)
    ensures |PyStr.Words(text)| <= limit ==> r == text
  {
    var words := PyStr.Words(text);
    if |words| > limit then
      PyStr.WordsOfJoin(SliceTo(words, limit));
      PyStr.Join(SliceTo(words, limit), " ")
    else text
  }

  /** main.py:63-70 once the model has answered with `responseText`. The
      answer is stripped, the limit is read from the prompt (which may
      raise), and the stripped answer is truncated to it. */
  function TrimToLimit(prompt: string, responseText: string): (r: Result<string, LimitError>)
    ensures r.Failure? <==> WordLimit(prompt).Failure?
    ensures r.Failure? ==> r.error == WordLimit(prompt).error
  {
    var text := PyStr.Strip(responseText);
    match WordLimit(prompt)
    case Failure(e) => Failure(e)
    case Success(limit) => Success(Truncate(text, limit))
  }

  // ---------------------------------------------------------------------
  // Reading the word count back out of a prompt
  // ---------------------------------------------------------------------

  /** In a rendered template the first `"around "` is the one in the
      prefix: none starts earlier. */
  lemma FirstAroundInPrefix(t: Prompts.Template, description: string, wordCount: int)
    requires Prompts.WellFormed(t)
    ensures var prompt := Prompts.Render(t, description, wordCount);
      PyStr.NoOccurrenceBefore(prompt, "around ", |t.lead| + 1)
  {
    var prompt := Prompts.Render(t, description, wordCount);
    var prefix := Prompts.Prefix(t);
    assert prompt[..|prefix|] == prefix;
    forall j | 0 <= j < |t.lead| + 1 ensures !PyStr.OccursAt(prompt, "around ", j) {
      PyStr.OccursInPrefix(prompt, "around ", |prefix|, j);
    }
  }

  /** Neither `str(n)` nor `" words"` contains an `'a'`, so no `"around "`
      starts before the end of `str(n) + " words"`. */
  lemma NoAroundInCount(digits: string, rest: string)
    requires forall i :: 0 <= i < |digits| ==> PyInt.IsDigit(digits[i]) || digits[i] == '-'
    ensures PyStr.NoOccurrenceBefore(digits + " words" + rest, "around ", |digits| + 6)
  {
    assert 'a' !in digits + " words";
    PyStr.FirstCharacterAbsent(digits + " words", rest, "around ");
  }

  /** Split at `"around "`, a text that starts with `str(n) + " words"`
      keeps all of that in its first piece. */
  lemma CountStartsFirstPiece(digits: string, after: string)
    requires forall i :: 0 <= i < |digits| ==> PyInt.IsDigit(digits[i]) || digits[i] == '-'
    ensures var w := digits + " words";
      var piece := PyStr.Split(w + after, "around ")[0];
      |w| <= |piece| && piece[..|w|] == w
  {
    var w := digits + " words";
    var rest := w + after;
    NoAroundInCount(digits, after);
    PyStr.SplitHeadExtends(rest, "around ", |w|);
    var piece := PyStr.Split(rest, "around ")[0];
    assert piece[..|w|] == rest[..|w|];
  }

  /** The text between the first and the second `"around "` of a rendered
      template starts with `str(n) + " words"`. */
  lemma SecondPieceStartsWithCount(t: Prompts.Template, description: string, wordCount: int)
    requires Prompts.WellFormed(t)
    ensures var pieces := PyStr.Split(Prompts.Render(t, description, wordCount), "around ");
      var w := PyInt.IntToString(wordCount) + " words";
      && |pieces| >= 2
      && |w| <= |pieces[1]| && pieces[1][..|w|] == w
  {
    var pat := "around ";
    var digits := PyInt.IntToString(wordCount);
    var after := ")" + t.tail + description + t.suffix;
    var rest := digits + " words" + after;
    var a := t.lead + "(";
    Prompts.RenderAroundCount(t, description, wordCount);
    FirstAroundInPrefix(t, description, wordCount);
    PyStr.SplitAtFirst(a, pat, rest);
    CountStartsFirstPiece(digits, after);
  }

  /** Split at `" words"`, a text that starts with a run without spaces and
      then `" words"` has that run as its first piece. */
  lemma SplitBeforeWords(digits: string, more: string)
    requires ' ' !in digits
    ensures PyStr.Split(digits + " words" + more, " words")[0] == digits
  {
    PyStr.FirstCharacterAbsent(digits, " words" + more, " words");
    assert digits + " words" + more == digits + (" words" + more);
    PyStr.SplitAtFirst(digits, " words", more);
  }

  /** Split at `" words"`, a piece that starts with `str(n) + " words"`
      has `str(n)` as its first part. */
  lemma CountPieceHead(wordCount: int, piece: string)
    requires var w := PyInt.IntToString(wordCount) + " words";
      |w| <= |piece| && piece[..|w|] == w
    ensures PyStr.Split(piece, " words")[0] == PyInt.IntToString(wordCount)
  {
    var digits := PyInt.IntToString(wordCount);
    var w := digits + " words";
    var more := piece[|w|..];
    assert piece == w + more by {
      assert piece == piece[..|w|] + more;
    }
    PyInt.IntToStringHasNoSpace(wordCount);
    SplitBeforeWords(digits, more);
  }

  /** A piece that starts with `str(n) + " words"` parses back to `n`. */
  lemma CountPieceReadsBack(wordCount: int, piece: string)
    requires var w := PyInt.IntToString(wordCount) + " words";
      |w| <= |piece| && piece[..|w|] == w
    ensures PyInt.ParseInt(PyStr.Split(piece, " words")[0]) == Some(wordCount)
  {
    CountPieceHead(wordCount, piece);
    PyInt.ParseIntToString(wordCount);
  }

  /** The limit read back from a rendered template is the word count it was
      rendered with, whatever the description says (even when it contains
      `"around "` or `" words"` itself). */
  lemma RenderedLimitRoundTrip(t: Prompts.Template, description: string, wordCount: int)
    requires Prompts.WellFormed(t)
    ensures WordLimit(Prompts.Render(t, description, wordCount)) == Success(wordCount)
  {
    SecondPieceStartsWithCount(t, description, wordCount);
    CountPieceReadsBack(wordCount, PyStr.Split(Prompts.Render(t, description, wordCount), "around ")[1]);
  }

  /** For each of the seven page keys, the word limit parsed back out of the
      prompt equals the requested word count. */
  lemma PromptLimitRoundTrip(pageType: string, description: string, wordCount: int)
    requires pageType in Prompts.PageKeys
    ensures WordLimit(Prompts.GeneratePrompt(pageType, description, wordCount)) == Success(wordCount)
  {
    var t := Prompts.TemplateOf(Prompts.PageKeys[pageType]);
    Prompts.TemplatesWellFormed(Prompts.PageKeys[pageType]);
    RenderedLimitRoundTrip(t, description, wordCount);
  }

  /** The fixed message has no `"around "`, so indexing `[1]` fails. */
  lemma MessageHasNoLimit()
    ensures WordLimit(Prompts.InvalidPageTypeMessage) == Failure(IndexError)
  {
    Prompts.MessageLacksAround();
  }

  /** The first piece of a split is a prefix of the string. */
  lemma SplitHeadIsPrefix(s: string, sep: string)
    requires sep != []
    ensures var head := PyStr.Split(s, sep)[0];
      |head| <= |s| && head == s[..|head|]
  {
    PyStr.SplitHeadExtends(s, sep, 0);
  }

  /** A prefix of a string without digits has no digits. */
  lemma NoDigitsInPrefix(s: string, p: string)
    requires |p| <= |s| && p == s[..|p|]
    requires forall k :: 0 <= k < |s| ==> !PyInt.IsDigit(s[k])
    ensures forall k :: 0 <= k < |p| ==> !PyInt.IsDigit(p[k])
  {
    forall k | 0 <= k < |p| ensures !PyInt.IsDigit(p[k]) {
      assert p[k] == s[k];
    }
  }

  /** A piece without digits does not parse, whatever `" words"` cuts off. */
  lemma PieceWithoutDigitsFails(piece: string)
    requires forall k :: 0 <= k < |piece| ==> !PyInt.IsDigit(piece[k])
    ensures PyInt.ParseInt(PyStr.Split(piece, " words")[0]) == None
  {
    SplitHeadIsPrefix(piece, " words");
    NoDigitsInPrefix(piece, PyStr.Split(piece, " words")[0]);
  }

  /** The second piece of a split is the head of the split of what follows
      the first separator. */
  lemma SecondPieceAfterFind(s: string, sep: string)
    requires sep != [] && PyStr.Contains(s, sep)
    ensures var i := PyStr.Find(s, sep).value;
      |PyStr.Split(s, sep)| >= 2 && PyStr.Split(s, sep)[1] == PyStr.Split(s[i + |sep|..], sep)[0]
  {
    PyStr.SplitAfterFind(s, sep);
  }

  /** When nothing after the first `"around "` is a digit, `int` fails. */
  lemma LimitWithoutDigits(prompt: string, rest: string)
    requires PyStr.Contains(prompt, "around ")
    requires rest == prompt[PyStr.Find(prompt, "around ").value + 7..]
    requires forall k :: 0 <= k < |rest| ==> !PyInt.IsDigit(rest[k])
    ensures WordLimit(prompt) == Failure(ValueError)
  {
    var piece := PyStr.Split(rest, "around ")[0];
    SplitHeadIsPrefix(rest, "around ");
    NoDigitsInPrefix(rest, piece);
    SecondPieceAfterFind(prompt, "around ");
    PieceWithoutDigitsFails(piece);
  }

  // ---------------------------------------------------------------------
  // Truncating the answer
  // ---------------------------------------------------------------------

  /** Over a non-negative limit the text becomes its first `limit` words
      joined by single spaces, and so has exactly `limit` words. */
  lemma TruncateOverLimit(text: string, limit: int)
    requires 0 <= limit < |PyStr.Words(text)|
    ensures Truncate(text, limit) == PyStr.Join(PyStr.Words(text)[..limit], " ")
    ensures |PyStr.Words(Truncate(text, limit))| == limit
  {
  }

  /** For a non-negative limit the words kept are the first
      `min(len(words), limit)` words of the text. */
  lemma TruncateKeepsLeadingWords(text: string, limit: int)
    requires 0 <= limit
    ensures var words := PyStr.Words(text);
      var kept := if limit < |words| then limit else |words|;
      PyStr.Words(Truncate(text, limit)) == words[..kept]
  {
  }

  /** Truncating twice with the same non-negative limit changes nothing. */
  lemma TruncateIdempotent(text: string, limit: int)
    requires 0 <= limit
    ensures Truncate(Truncate(text, limit), limit) == Truncate(text, limit)
  {
    TruncateKeepsLeadingWords(text, limit);
  }

  /** Stripped text stays stripped when truncated. */
  lemma TruncateStripped(text: string, limit: int)
    requires PyStr.Strip(text) == text
    ensures PyStr.Strip(Truncate(text, limit)) == Truncate(text, limit)
  {
    var words := PyStr.Words(text);
    if |words| > limit {
      PyStr.JoinOfWordsIsStripped(SliceTo(words, limit));
    }
  }

  // ---------------------------------------------------------------------
  // The whole post-processing step
  // ---------------------------------------------------------------------

  /** The copy returned has no outer whitespace. */
  lemma TrimResultStripped(prompt: string, responseText: string)
    requires TrimToLimit(prompt, responseText).Success?
    ensures var copy := TrimToLimit(prompt, responseText).value;
      PyStr.Strip(copy) == copy
  {
    PyStr.StripIdempotent(responseText);
    TruncateStripped(PyStr.Strip(responseText), WordLimit(prompt).value);
  }

  /** At or under the limit the copy is exactly the stripped answer. */
  lemma TrimUnderLimit(prompt: string, responseText: string, limit: int)
    requires WordLimit(prompt) == Success(limit)
    requires |PyStr.Words(responseText)| <= limit
    ensures TrimToLimit(prompt, responseText) == Success(PyStr.Strip(responseText))
  {
    PyStr.WordsStrip(responseText);
  }

  /** Over a non-negative limit the copy is the answer's first `limit` words
      joined by single spaces, `limit` words in all. */
  lemma TrimOverLimit(prompt: string, responseText: string, limit: int)
    requires WordLimit(prompt) == Success(limit)
    requires 0 <= limit < |PyStr.Words(responseText)|
    ensures TrimToLimit(prompt, responseText)
      == Success(PyStr.Join(PyStr.Words(responseText)[..limit], " "))
    ensures |PyStr.Words(TrimToLimit(prompt, responseText).value)| == limit
  {
    PyStr.WordsStrip(responseText);
    TruncateOverLimit(PyStr.Strip(responseText), limit);
  }

  /** For a non-negative limit the copy's words are the answer's first
      `min(len(words), limit)` words. */
  lemma TrimKeepsLeadingWords(prompt: string, responseText: string, limit: int)
    requires WordLimit(prompt) == Success(limit) && 0 <= limit
    ensures var copy := TrimToLimit(prompt, responseText).value;
      var words := PyStr.Words(responseText);
      var kept := if limit < |words| then limit else |words|;
      PyStr.Words(copy) == words[..kept]
  {
    PyStr.WordsStrip(responseText);
    TruncateKeepsLeadingWords(PyStr.Strip(responseText), limit);
  }

  /** Trimming the copy again with the same prompt changes nothing. */
  lemma TrimIdempotent(prompt: string, responseText: string, limit: int)
    requires WordLimit(prompt) == Success(limit) && 0 <= limit
    ensures var copy := TrimToLimit(prompt, responseText).value;
      TrimToLimit(prompt, copy) == Success(copy)
  {
    var text := PyStr.Strip(responseText);
    TrimResultStripped(prompt, responseText);
    TruncateIdempotent(text, limit);
  }
}

=== FILE: prompts.dfy ===
/**
 * `generate_prompt` (main.py:19-47): a dictionary of seven f-string templates
 * keyed by page type, and a fixed message for every other key.
 */
module Prompts {
  import PyStr
  import PyInt

  /** One entry of the `page_prompts` dictionary. Every template has the shape
      `lead + "(around {word_count} words)" + tail + "{website_description}" + suffix`;
      the three fields are the fixed text around the two substitutions. */
  datatype Template = Template(lead: string, tail: string, suffix: string)

  /** The text before the word count; it ends in `"(around "`. */
  function Prefix(t: Template): string {
    t.lead + "(around "
  }

  /** The text between the word count and the description; it starts with
      `" words)"`. */
  function Middle(t: Template): string {
    " words)" + t.tail
  }

  /** The f-string with `word_count` rendered by `str` and the description
      spliced in verbatim. */
  function Render(t: Template, description: string, wordCount: int): (r: string)
    ensures |Prefix(t)| <= |r| && r[..|Prefix(t)|] == Prefix(t)
  {
    var r := Prefix(t) + PyInt.IntToString(wordCount) + Middle(t) + description + t.suffix;
    assert r[..|Prefix(t)|] == Prefix(t);
    r
  }

  /** A rendered template cut around its `"around "`: what comes before,
      the separator, and the count with the rest after it. */
  lemma RenderAroundCount(t: Template, description: string, wordCount: int)
    ensures Render(t, description, wordCount)
      == (t.lead + "(") + "around "
         + (PyInt.IntToString(wordCount) + " words" + (")" + t.tail + description + t.suffix))
  {
    var digits := PyInt.IntToString(wordCount);
    calc {
      Render(t, description, wordCount);
    ==
      t.lead + "(around " + digits + (" words)" + t.tail) + description + t.suffix;
    == { assert "(around " == "(" + "around "; assert " words)" == " words" + ")"; }
      t.lead + ("(" + "around ") + digits + ((" words" + ")") + t.tail) + description + t.suffix;
    }
  }

  /** The only `"around "` in `lead + "(around "` is the one at its end, so
      a search for the first `"around "` in a rendered prompt lands there. */
  predicate LeadWellFormed(lead: string) {
    PyStr.NoOccurrenceBefore(lead + "(around ", "around ", |lead| + 1)
  }

  predicate WellFormed(t: Template) {
    LeadWellFormed(t.lead)
  }

  /** The pages `page_prompts` has a template for. */
  datatype Page = Home | AboutUs | ContactUs | Products | Services | Landing | Faqs

  /** The text of each template before `"(around "`, cited per page:
      Home main.py:32, About Us main.py:34, Contact Us main.py:36, Products
      main.py:38, Services main.py:40, Landing main.py:42, FAQs main.py:44. */
  function Lead(page: Page): string {
    match page
    case Home => "Craft an engaging " + "homepage copy "
    case AboutUs => "Write an About Us " + "page copy "
    case ContactUs => "Write a Contact Us " + "page copy "
    case Products => "Write a Products " + "page copy "
    case Services => "Write a Services " + "page copy "
    case Landing => "Write an engaging " + "landing page copy "
    case Faqs => "Write a Frequently Asked " + "Questions (FAQ) page copy "
  }

  /** The text of each template between `" words)"` and the description. */
  function Tail(page: Page): string {
    match page
    case Home => " for a website" + " that offers "
    case AboutUs => " for a website." + " The website offers: "
    case ContactUs => " for a website." + " The website provides: "
    case Products => " for a website." + " The website offers: "
    case Services => " for a website." + " The website offers: "
    case Landing => " for a website" + " that provides "
    case Faqs => " for a website" + " that offers "
  }

  /** The instructions that follow the description: a full stop that ends the
      sentence about the description, then the page's guidance. */
  function Instructions(page: Page): string {
    "." + Guidance(page)
  }

  /** The guidance of each template. Long literals are written as
      concatenations of shorter ones. */
  function Guidance(page: Page): string {
    match page
    case Home =>
      " The content should immediately communicate the brand's value proposition"
        + " and highlight its core identity, especially focusing on eco-friendly and"
        + " sustainable aspects. Start with a compelling, attention-grabbing"
        + " introduction, followed by concise, easy-to-read paragraphs. Share a brief"
        + " and impactful brand story that resonates with the audience's needs and"
        + " challenges. Emphasize the business's dedication to sustainability and"
        + " environmental responsibility. Incorporate social proof, such as"
        + " testimonials or achievements, to build credibility. End with a clear,"
        + " action-oriented call-to-action (CTA) that encourages visitors to take the"
        + " next step, whether it\U{2019}s subscribing, purchasing, or exploring further."
        + " Ensure the tone is inviting, concise, and aligned with the brand's values."
        + " Use short paragraphs of not more than 3 lines , proper spacing, and an"
        + " aesthetically pleasing format for easy readability."
    case AboutUs =>
      " Emphasize the business's mission, values, history, and vision for the"
        + " future. Include information on why the business is credible (such as"
        + " achievements, collaborations, or industry recognition). Address potential"
        + " visitor questions like: 'Is this brand legit?' and 'Do I resonate with this"
        + " brand\U{2019}s values and mission?' Present the business\U{2019}s story in a way that"
        + " establishes trust and invites visitors to connect. Conclude with a call to"
        + " action (CTA), encouraging visitors to take the next step (e.g., explore"
        + " services, contact the business, or follow on social media).Use simple"
        + " words.Donot use large paragraphs , proper spacing, and an aesthetically"
        + " pleasing format for easy readability."
    case ContactUs =>
      " The copy should encourage users to get in touch by making it easy for them"
        + " to reach out. Highlight the various contact methods (e.g., contact form,"
        + " email, phone number, live chat) and customer support options. Include a"
        + " brief invitation to contact, provide multiple avenues for getting in touch,"
        + " and offer social proof (e.g., logos, testimonials). Conclude with a"
        + " call-to-action that makes reaching out easy and compelling.Use simple"
        + " words.Donot use large paragraphs ,use  proper spacing, and an aesthetically"
        + " pleasing format for easy readability."
    case Products =>
      " Highlight the unique selling points of the products, any customization"
        + " options, and the benefits for customers. Create a compelling product name."
        + " Provide essential technical details and specifications like material,"
        + " dimensions, and weight. Include any relevant information customers might"
        + " actively look for. Use clear and actionable copy for the \U{2018}Add to Cart\U{2019}"
        + " button (e.g., \U{2018}Add to Cart\U{2019} or \U{2018}Buy Now\U{2019}). Include customer reviews and a"
        + " strong call-to-action to purchase.Donot use large paragraphs ,use  proper"
        + " spacing, and an aesthetically pleasing format for easy readability."
    case Services =>
      (ServicesExplain() + ServicesBenefits() + ServicesProblems())
        + "Include a" + (ServicesCall() + ServicesLayout() + ServicesFormat())
    case Landing =>
      " The copy should focus on persuading visitors to take immediate action"
        + " while reinforcing the core benefits of the product or service. Start with a"
        + " bold and attention-grabbing headline that clearly communicates what the"
        + " business offers. Follow with a compelling subheading that explains how the"
        + " product or service solves the visitors' pain points. Use bullet points to"
        + " succinctly outline key features and advantages, emphasizing how the brand"
        + " stands out in terms of quality, sustainability, and eco-friendliness."
        + " Conclude with a clear, action-oriented call-to-action (CTA) that encourages"
        + " visitors to engage with the business.Donot use large paragraphs ,use "
        + " proper spacing, and an aesthetically pleasing format for easy readability."
    case Faqs =>
      " The page should include a clear and concise list of common questions"
        + " customers might ask, along with detailed and helpful answers. Organize the"
        + " FAQ into sections, ensuring each answer is informative and addresses the"
        + " user's needs.Each section should be in different paragrapg and all"
        + " questions shoould first include question as heading and its answer in next"
        + " line. Everything question and its answer should in seperate line ."
        + " Prioritize clarity, simplicity, and usefulness in every response to improve"
        + " the user experience.Donot use large paragraphs ,use  proper spacing, and an"
        + " aesthetically pleasing format for easy readability."
  }

  /** The Services guidance (main.py:40), in sentences short enough for
      their letters to be checked one by one. */
  function ServicesExplain(): string {
    " Clearly explain" + " the services" + " offered, highlight" + " what makes them" + " unique,"
  }

  function ServicesBenefits(): string {
    " outline the" + " specific benefits" + " for customers," + " and explain how" + " these services"
  }

  function ServicesProblems(): string {
    " solve key problems" + " or improve the" + " customer's" + " experience. "
  }

  function ServicesCall(): string {
    " call-to-action" + " (CTA) to" + " encourage readers" + " to contact or" + " engage with the"
  }

  function ServicesLayout(): string {
    " service.Donot" + " use large" + " paragraphs ,use " + " proper spacing," + " and an"
  }

  function ServicesFormat(): string {
    " aesthetically" + " pleasing format" + " for easy" + " readability."
  }

  /** The `page_prompts` entry of a page. */
  function TemplateOf(page: Page): Template {
    Template(Lead(page), Tail(page), Instructions(page))
  }

  /** The keys of the `page_prompts` dictionary. The Home key carries a
      trailing space. */
  const PageKeys: map<string, Page> := map[
    "Home " := Home,
    "About Us" := AboutUs,
    "Contact Us" := ContactUs,
    "Products" := Products,
    "Services" := Services,
    "Landing" := Landing,
    "FAQs" := Faqs
  ]

  /** The default of `page_prompts.get` (main.py:47). */
  const InvalidPageTypeMessage :=
    "Invalid" + " page type. Please select from: Home" + ", About" + ", Landing Page"
    + ", Contact" + ", Products" + ", Services" + ", FAQs."

  /** The page types the select box offers (main.py:83). */
  const PageTypeOptions: seq<string> :=
    ["Home", "About Us", "Contact Us", "Products", "Services", "Landing", "FAQs"]

  /** `generate_prompt(page_type, website_description, word_count)`. The
      fixed message comes back exactly for the page types that are not keys:
      no template renders to it. */
  function GeneratePrompt(pageType: string, description: string, wordCount: int): (r: string)
    ensures r == InvalidPageTypeMessage <==> pageType !in PageKeys
  {
    if pageType in PageKeys then
      LeadStart(PageKeys[pageType]);
      RenderIsNotMessage(TemplateOf(PageKeys[pageType]), description, wordCount);
      Render(TemplateOf(PageKeys[pageType]), description, wordCount)
    else InvalidPageTypeMessage
  }

  /** Every lead starts with a capital other than the `'I'` the fixed
      message starts with. */
  lemma LeadStart(page: Page)
    ensures Lead(page) != [] && Lead(page)[0] != 'I'
  {
  }

  lemma MessageStart()
    ensures InvalidPageTypeMessage != [] && InvalidPageTypeMessage[0] == 'I'
  {
  }

  /** A template whose lead does not start with `'I'` never renders to the
      fixed message: they differ in their first character. */
  lemma RenderIsNotMessage(t: Template, description: string, wordCount: int)
    requires t.lead != [] && t.lead[0] != 'I'
    ensures Render(t, description, wordCount) != InvalidPageTypeMessage
  {
    var r := Render(t, description, wordCount);
    MessageStart();
    assert r[0] == Prefix(t)[0] == t.lead[0];
  }

  // ---------------------------------------------------------------------
  // The templates are well formed
  // ---------------------------------------------------------------------

  /** A lead that lacks one of the letters of `"around "` is well formed: no
      match fits inside it, and none can run into the `'('` that follows it. */
  lemma LeadClear(lead: string, k: int)
    requires 0 <= k < 7 && "around "[k] !in lead
    ensures LeadWellFormed(lead)
  {
    PyStr.MissingCharacter(lead, "around ", k);
    PyStr.Seam(lead, "(around ", "around ", 1);
  }

  lemma HomeWellFormed() ensures LeadWellFormed(Lead(Home)) { LeadClear(Lead(Home), 3); }
  lemma AboutUsWellFormed() ensures LeadWellFormed(Lead(AboutUs)) { LeadClear(Lead(AboutUs), 5); }
  lemma ContactUsWellFormed() ensures LeadWellFormed(Lead(ContactUs)) { LeadClear(Lead(ContactUs), 5); }
  lemma ProductsWellFormed() ensures LeadWellFormed(Lead(Products)) { LeadClear(Lead(Products), 4); }
  lemma ServicesWellFormed() ensures LeadWellFormed(Lead(Services)) { LeadClear(Lead(Services), 3); }
  lemma LandingWellFormed() ensures LeadWellFormed(Lead(Landing)) { LeadClear(Lead(Landing), 3); }

  /** The FAQ lead has every letter of `"around "`, but at its `'Q'` it
      splits into a part without `'o'` and a part without `'r'`. */
  lemma FaqsWellFormed() ensures LeadWellFormed(Lead(Faqs)) {
    var pat := "around ";
    var x := "Write a Frequently Asked ";
    var y := "Questions (FAQ) page copy ";
    PyStr.MissingCharacter(x, pat, 2);
    PyStr.MissingCharacter(y, pat, 1);
    PyStr.Seam(y, "(around ", pat, 1);
    PyStr.Seam(x, y + "(around ", pat, |y| + 1);
    assert Lead(Faqs) + "(around " == x + (y + "(around ");
  }

  /** Each of the seven prefixes mentions `"around "` only at its end. */
  lemma TemplatesWellFormed(page: Page)
    ensures WellFormed(TemplateOf(page))
  {
    match page
    case Home => HomeWellFormed();
    case AboutUs => AboutUsWellFormed();
    case ContactUs => ContactUsWellFormed();
    case Products => ProductsWellFormed();
    case Services => ServicesWellFormed();
    case Landing => LandingWellFormed();
    case Faqs => FaqsWellFormed();
  }

  // ---------------------------------------------------------------------
  // What generate_prompt returns
  // ---------------------------------------------------------------------

  /** A rendered template contains `"(around " + str(word_count) +
      " words)"`, and contains the description verbatim. */
  lemma RenderContents(t: Template, description: string, wordCount: int)
    ensures var prompt := Render(t, description, wordCount);
      && PyStr.Contains(prompt, "(around " + PyInt.IntToString(wordCount) + " words)")
      && PyStr.Contains(prompt, description)
  {
    var prompt := Render(t, description, wordCount);
    var digits := PyInt.IntToString(wordCount);
    var marker := "(around " + digits + " words)";
    assert prompt == t.lead + marker + (t.tail + description + t.suffix);
    PyStr.ContainsMiddle(t.lead, marker, t.tail + description + t.suffix);
    assert prompt == (Prefix(t) + digits + Middle(t)) + description + t.suffix;
    PyStr.ContainsMiddle(Prefix(t) + digits + Middle(t), description, t.suffix);
  }

  /** For each of the seven keys the prompt is that key's template, with the
      word count and the description inserted. */
  lemma PromptForKnownPage(pageType: string, description: string, wordCount: int)
    requires pageType in PageKeys
    ensures var t := TemplateOf(PageKeys[pageType]);
      var prompt := GeneratePrompt(pageType, description, wordCount);
      && prompt[..|Prefix(t)|] == Prefix(t)
      && PyStr.Contains(prompt, "(around " + PyInt.IntToString(wordCount) + " words)")
      && PyStr.Contains(prompt, description)
  {
    RenderContents(TemplateOf(PageKeys[pageType]), description, wordCount);
  }

  /** Any other page type gets the fixed message, whatever the description
      and word count. */
  lemma PromptForUnknownPage(pageType: string, description: string, wordCount: int)
    requires pageType !in PageKeys
    ensures GeneratePrompt(pageType, description, wordCount) == InvalidPageTypeMessage
  {
  }

  /** The select box's "Home" is not the dictionary's "Home ", so choosing
      it yields the fixed message. */
  lemma HomeOptionFallsThrough(description: string, wordCount: int)
    ensures "Home" in PageTypeOptions
    ensures GeneratePrompt("Home", description, wordCount) == InvalidPageTypeMessage
  {
    HomeOptionIsNoKey();
    PromptForUnknownPage("Home", description, wordCount);
  }

  lemma HomeOptionIsNoKey()
    ensures "Home" in PageTypeOptions && "Home" !in PageKeys
  {
    assert "Home" != "Home ";
  }

  /** The fixed message has no `"around "`: its commas cut it into pieces
      that each lack one of the letters. */
  lemma MessageLacksAround()
    ensures !PyStr.Contains(InvalidPageTypeMessage, "around ")
  {
    var pat := "around ";
    var s0 := "Invalid" + " page type. Please select from: Home";
    PyStr.MissingCharacter(s0, pat, 3);
    PyStr.MissingCharacter(", About", pat, 0);
    PyStr.MissingCharacter(", Landing Page", pat, 1);
    PyStr.MissingCharacter(", Contact", pat, 1);
    PyStr.MissingCharacter(", Products", pat, 0);
    PyStr.MissingCharacter(", Services", pat, 0);
    PyStr.MissingCharacter(", FAQs.", pat, 0);
    var s1 := s0 + ", About";
    PyStr.Seam(s0, ", About", pat, 7);
    var s2 := s1 + ", Landing Page";
    PyStr.Seam(s1, ", Landing Page", pat, 14);
    var s3 := s2 + ", Contact";
    PyStr.Seam(s2, ", Contact", pat, 9);
    var s4 := s3 + ", Products";
    PyStr.Seam(s3, ", Products", pat, 10);
    var s5 := s4 + ", Services";
    PyStr.Seam(s4, ", Services", pat, 10);
    PyStr.Seam(s5, ", FAQs.", pat, 7);
  }

  /** The fixed message opens with `"Invalid"`. */
  lemma MessageSaysInvalid()
    ensures PyStr.Contains(InvalidPageTypeMessage, "Invalid")
  {
    var m0 := "Invalid" + " page type. Please select from: Home";
    PyStr.ContainsStart("Invalid", " page type. Please select from: Home");
    PyStr.ContainsExtends(m0, ", About", "Invalid");
    PyStr.ContainsExtends(m0 + ", About", ", Landing Page", "Invalid");
    PyStr.ContainsExtends(m0 + ", About" + ", Landing Page", ", Contact", "Invalid");
    PyStr.ContainsExtends(m0 + ", About" + ", Landing Page" + ", Contact", ", Products", "Invalid");
    PyStr.ContainsExtends(m0 + ", About" + ", Landing Page" + ", Contact" + ", Products",
      ", Services", "Invalid");
    PyStr.ContainsExtends(m0 + ", About" + ", Landing Page" + ", Contact" + ", Products"
      + ", Services", ", FAQs.", "Invalid");
  }

  // ---------------------------------------------------------------------
  // Where "Invalid" can come from in a prompt
  // ---------------------------------------------------------------------

  /** The text of a page's template around the word count has no capital
      `'I'`, and the part before the description ends with a space. */
  predicate FrameClear(page: Page) {
    && 'I' !in Lead(page) && 'I' !in Tail(page)
    && EndsWithSpace(Tail(page))
  }

  predicate EndsWithSpace(s: string) {
    s != [] && s[|s| - 1] == ' '
  }

  lemma HomeFrameClear() ensures FrameClear(Home) { }
  lemma AboutUsFrameClear() ensures FrameClear(AboutUs) { }
  lemma ContactUsFrameClear() ensures FrameClear(ContactUs) { }
  lemma ProductsFrameClear() ensures FrameClear(Products) { }
  lemma ServicesFrameClear() ensures FrameClear(Services) { }
  lemma LandingFrameClear() ensures FrameClear(Landing) { }
  lemma FaqsFrameClear() ensures FrameClear(Faqs) { }

  lemma FramesClear(page: Page)
    ensures FrameClear(page)
  {
    match page
    case Home => HomeFrameClear();
    case AboutUs => AboutUsFrameClear();
    case ContactUs => ContactUsFrameClear();
    case Products => ProductsFrameClear();
    case Services => ServicesFrameClear();
    case Landing => LandingFrameClear();
    case Faqs => FaqsFrameClear();
  }

  /** A template around the description: no capital `'I'` before it, a
      space just before it and a full stop just after it. */
  predicate Framed(t: Template) {
    && 'I' !in t.lead && 'I' !in t.tail && EndsWithSpace(t.tail)
    && t.suffix != [] && t.suffix[0] == '.'
  }

  lemma LeadFramed(page: Page) ensures 'I' !in TemplateOf(page).lead { FramesClear(page); }

  lemma TailFramed(page: Page)
    ensures 'I' !in TemplateOf(page).tail && EndsWithSpace(TemplateOf(page).tail)
  {
    FramesClear(page);
  }

  lemma SuffixFramed(page: Page)
    ensures TemplateOf(page).suffix != [] && TemplateOf(page).suffix[0] == '.'
  {
  }

  /** All seven templates are framed. */
  lemma TemplatesFramed(page: Page)
    ensures Framed(TemplateOf(page))
  {
    LeadFramed(page);
    TailFramed(page);
    SuffixFramed(page);
  }

  /** A framed template renders to a prompt that mentions `"Invalid"`
      exactly when its description or its instructions do: no match can
      straddle either edge of the description, and the text before the
      description has none. */
  lemma RenderInvalidBetween(t: Template, description: string, wordCount: int)
    requires Framed(t)
    ensures PyStr.Contains(Render(t, description, wordCount), "Invalid")
      <==> PyStr.Contains(description, "Invalid") || PyStr.Contains(t.suffix, "Invalid")
  {
    var digits := PyInt.IntToString(wordCount);
    var x := Prefix(t) + digits + Middle(t);
    assert 'I' !in digits by {
      forall i | 0 <= i < |digits| ensures digits[i] != 'I' {
        assert PyInt.IsDigit(digits[i]) || digits[i] == '-';
      }
    }
    assert 'I' !in x;
    PyStr.MissingCharacter(x, "Invalid", 0);
    assert x[|x| - 1] == t.tail[|t.tail| - 1];
    PyStr.ContainsBetweenSeams(x, description, t.suffix, "Invalid");
  }

  /** Each page's prompt mentions `"Invalid"` exactly when the description
      or that page's instructions do. */
  lemma RenderInvalid(page: Page, description: string, wordCount: int)
    ensures var t := TemplateOf(page);
      PyStr.Contains(Render(t, description, wordCount), "Invalid")
      <==> PyStr.Contains(description, "Invalid") || PyStr.Contains(t.suffix, "Invalid")
  {
    TemplatesFramed(page);
    RenderInvalidBetween(TemplateOf(page), description, wordCount);
  }

  lemma ServicesExplainClear() ensures 'I' !in ServicesExplain() { }
  lemma ServicesBenefitsClear() ensures 'I' !in ServicesBenefits() { }
  lemma ServicesProblemsClear() ensures 'I' !in ServicesProblems() { }
  lemma ServicesCallClear() ensures 'I' !in ServicesCall() { }
  lemma ServicesLayoutClear() ensures 'I' !in ServicesLayout() { }
  lemma ServicesFormatClear() ensures 'I' !in ServicesFormat() { }

  /** The Services instructions never mention `"Invalid"`: their only
      capital `'I'` opens `"Include"`. */
  lemma ServicesInstructionsClear()
    ensures !PyStr.Contains(TemplateOf(Services).suffix, "Invalid")
  {
    var x := "." + (ServicesExplain() + ServicesBenefits() + ServicesProblems());
    var m := "Include a";
    var y := ServicesCall() + ServicesLayout() + ServicesFormat();
    ServicesExplainClear();
    ServicesBenefitsClear();
    ServicesProblemsClear();
    ServicesCallClear();
    ServicesLayoutClear();
    ServicesFormatClear();
    IncludeIsNotInvalid();
    ServicesInstructionsAroundInclude();
    PyStr.SingleHeadAbsent(x, m, y, "Invalid");
  }

  /** The Services prompt mentions "Invalid" exactly when its description
      does. */
  lemma ServicesPromptInvalid(description: string, wordCount: int)
    ensures PyStr.Contains(GeneratePrompt("Services", description, wordCount), "Invalid")
      <==> PyStr.Contains(description, "Invalid")
  {
    ServicesPrompt(description, wordCount);
    RenderInvalid(Services, description, wordCount);
    ServicesInstructionsClear();
  }

  lemma ServicesPrompt(description: string, wordCount: int)
    ensures GeneratePrompt("Services", description, wordCount)
      == Render(TemplateOf(Services), description, wordCount)
  {
    assert "Services" in PageKeys && PageKeys["Services"] == Services;
  }

  lemma IncludeIsNotInvalid()
    ensures var m := "Include a"; 'I' !in m[1..] && |m| >= 7 && m[..7] != "Invalid"
  {
    var m := "Include a";
    assert m[1..] == "nclude a";
    assert m[..7][2] == 'c';
  }

  lemma ServicesInstructionsAroundInclude()
    ensures TemplateOf(Services).suffix
      == "." + (ServicesExplain() + ServicesBenefits() + ServicesProblems()) + "Include a"
         + (ServicesCall() + ServicesLayout() + ServicesFormat())
  {
    var x := ServicesExplain() + ServicesBenefits() + ServicesProblems();
    var y := ServicesCall() + ServicesLayout() + ServicesFormat();
    ServicesGuidanceAroundInclude();
    assert TemplateOf(Services).suffix == "." + Guidance(Services);
    assert "." + (x + "Include a" + y) == "." + x + "Include a" + y;
  }

  lemma ServicesGuidanceAroundInclude()
    ensures Guidance(Services)
      == (ServicesExplain() + ServicesBenefits() + ServicesProblems()) + "Include a"
         + (ServicesCall() + ServicesLayout() + ServicesFormat())
  {
  }

  // ---------------------------------------------------------------------
  // The dictionary keyed as the select box offers
  // ---------------------------------------------------------------------

  /** `page_prompts` with its Home key spelled as the select box spells it. */
  const CorrectedPageKeys: map<string, Page> := map[
    "Home" := Home,
    "About Us" := AboutUs,
    "Contact Us" := ContactUs,
    "Products" := Products,
    "Services" := Services,
    "Landing" := Landing,
    "FAQs" := Faqs
  ]

  /** `generate_prompt` over the corrected dictionary; the fixed message
      comes back exactly for the page types the select box does not offer. */
  function GeneratePromptCorrected(pageType: string, description: string, wordCount: int): (r: string)
    ensures r == InvalidPageTypeMessage <==> pageType !in PageTypeOptions
  {
    CorrectedKeysAreOptions();
    if pageType in CorrectedPageKeys then
      LeadStart(CorrectedPageKeys[pageType]);
      RenderIsNotMessage(TemplateOf(CorrectedPageKeys[pageType]), description, wordCount);
      Render(TemplateOf(CorrectedPageKeys[pageType]), description, wordCount)
    else InvalidPageTypeMessage
  }

  /** The corrected keys are exactly the select box's options. */
  lemma CorrectedKeysAreOptions()
    ensures forall o :: o in PageTypeOptions <==> o in CorrectedPageKeys
  {
  }

  /** The corrected dictionary differs from `page_prompts` only in the
      spelling of the Home key. */
  lemma CorrectedKeys(key: string)
    ensures "Home" in CorrectedPageKeys && "Home " !in CorrectedPageKeys
    ensures CorrectedPageKeys["Home"] == PageKeys["Home "]
    ensures key != "Home" && key != "Home " ==>
      (key in CorrectedPageKeys <==> key in PageKeys)
      && (key in PageKeys ==> CorrectedPageKeys[key] == PageKeys[key])
  {
  }

  /** The corrected "Home" gets the template the original keyed "Home ". */
  lemma CorrectedHome(description: string, wordCount: int)
    ensures GeneratePromptCorrected("Home", description, wordCount)
      == GeneratePrompt("Home ", description, wordCount)
    ensures GeneratePromptCorrected("Home ", description, wordCount) == InvalidPageTypeMessage
  {
    CorrectedKeys("Home");
  }

  /** Every other page type gets what it got before. */
  lemma CorrectedElsewhere(pageType: string, description: string, wordCount: int)
    requires pageType != "Home" && pageType != "Home "
    ensures GeneratePromptCorrected(pageType, description, wordCount)
      == GeneratePrompt(pageType, description, wordCount)
  {
    CorrectedKeys(pageType);
  }
}

=== FILE: pyint.dfy ===
/**
 * Python's conversions between `int` and decimal text: `str(n)` (which the
 * f-string templates use for the word count) and `int(s)` (which recovers
 * the word limit from the prompt).
 */
module PyInt {
  import opened Wrappers
  import PyStr

  predicate IsDigit(c: char) {
    '0' <= c <= '9'
  }

  function DigitChar(d: nat): (c: char)
    requires d < 10
    ensures IsDigit(c)
  {
    (('0' as int) + d) as char
  }

  function DigitValue(c: char): (d: nat)
    requires IsDigit(c)
    ensures d < 10 && DigitChar(d) == c
  {
    (c as int) - ('0' as int)
  }

  /** `str(n)` for `n >= 0`: its decimal digits, without leading zeros. */
  function NatToString(n: nat): (r: string)
    ensures r != [] && forall i :: 0 <= i < |r| ==> IsDigit(r[i])
    ensures |r| == 1 || r[0] != '0'
    decreases n
  {
    if n < 10 then [DigitChar(n)] else NatToString(n / 10) + [DigitChar(n % 10)]
  }

  /** `str(n)`: a minus sign for negative numbers, then the digits of `|n|`. */
  function IntToString(n: int): (r: string)
    ensures r != [] && (r[0] == '-' <==> n < 0)
    ensures forall i :: 0 <= i < |r| ==> IsDigit(r[i]) || (i == 0 && r[i] == '-')
    ensures var digits := if n < 0 then r[1..] else r;
      digits != [] && (|digits| == 1 || digits[0] != '0')
  {
    if n < 0 then
      var r := "-" + NatToString(-n);
      assert r[1..] == NatToString(-n);
      r
    else NatToString(n)
  }

  /** The digit string `int()` accepts after an optional sign: ASCII digits,
      with single underscores allowed between two digits. */
  predicate IsDigitRun(s: string) {
    && s != []
    && IsDigit(s[0])
    && (forall i :: 0 <= i < |s| ==> IsDigit(s[i]) || s[i] == '_')
    && (forall i :: 0 <= i < |s| && s[i] == '_' ==> i + 1 < |s| && IsDigit(s[i + 1]))
  }

  /** The value of a digit string, read left to right, skipping underscores. */
  function DigitsValue(s: string): nat
    requires forall i :: 0 <= i < |s| ==> IsDigit(s[i]) || s[i] == '_'
    decreases |s|
  {
    if s == [] then 0
    else if s[|s| - 1] == '_' then DigitsValue(s[..|s| - 1])
    else DigitsValue(s[..|s| - 1]) * 10 + DigitValue(s[|s| - 1])
  }

  /** The whitespace `int()` skips around its digits: every character for
      which `str.isspace()` holds except the ASCII separators U+001C to
      U+001F, which `int()` leaves in place and so rejects. */
  predicate IntSpace(c: char) {
    PyStr.IsSpace(c) && !('\U{1C}' <= c <= '\U{1F}')
  }

  /** What is left after the leading whitespace `int()` skips. */
  function TrimLeft(s: string): (r: string)
    ensures |r| <= |s| && r == s[|s| - |r|..]
    ensures forall i :: 0 <= i < |s| - |r| ==> IntSpace(s[i])
    ensures r == [] || !IntSpace(r[0])
    decreases |s|
  {
    if s != [] && IntSpace(s[0]) then TrimLeft(s[1..]) else s
  }

  /** What is left after the trailing whitespace `int()` skips. */
  function TrimRight(s: string): (r: string)
    ensures |r| <= |s| && r == s[..|r|]
    ensures forall i :: |r| <= i < |s| ==> IntSpace(s[i])
    ensures r == [] || !IntSpace(r[|r| - 1])
    decreases |s|
  {
    if s != [] && IntSpace(s[|s| - 1]) then TrimRight(s[..|s| - 1]) else s
  }

  /** The text `int()` reads: `s` without the whitespace around it. */
  function Trim(s: string): (r: string)
    ensures r != [] ==> !IntSpace(r[0]) && !IntSpace(r[|r| - 1])
  {
    var left := TrimLeft(s);
    var r := TrimRight(left);
    assert r != [] ==> r[0] == left[0];
    r
  }

  /** Trimming only removes characters. */
  lemma TrimWithin(s: string)
    ensures forall i :: 0 <= i < |Trim(s)| ==> Trim(s)[i] in s
  {
    var left := TrimLeft(s);
    var r := TrimRight(left);
    forall i | 0 <= i < |r| ensures r[i] in s {
      assert r[i] == left[i] == s[|s| - |left| + i];
    }
  }

  /** Python's `int(s)` for base 10: the whitespace of IntSpace around the
      text is ignored, an optional `+` or `-` may precede the digits;
      anything else is the ValueError case, None here. Text without a
      single digit is never a number. */
  function ParseInt(s: string): (r: Option<int>)
    ensures r.Some? ==> exists i :: 0 <= i < |s| && IsDigit(s[i])
  {
    TrimWithin(s);
    ParseSignedHasDigit(Trim(s));
    ParseSigned(Trim(s))
  }

  /** A leading character of IntSpace, such as the no-break space U+00A0,
      does not change what `int()` reads. */
  lemma ParseIntSkipsSpace(c: char, s: string)
    requires IntSpace(c)
    ensures ParseInt([c] + s) == ParseInt(s)
  {
    assert ([c] + s)[1..] == s;
    assert TrimLeft([c] + s) == TrimLeft(s);
  }

  /** A leading separator U+001C to U+001F, which `str.isspace()` counts as
      whitespace, makes `int()` fail whatever follows it. */
  lemma ParseIntRejectsSeparator(c: char, s: string)
    requires '\U{1C}' <= c <= '\U{1F}'
    ensures ParseInt([c] + s) == None
  {
    var t := [c] + s;
    assert TrimLeft(t) == t;
    var r := TrimRight(t);
    assert r == [] || r[0] == c;
    ParseSignedRejectsHead(r);
  }

  lemma ParseSignedRejectsHead(t: string)
    requires t != [] ==> !IsDigit(t[0]) && t[0] != '+' && t[0] != '-'
    ensures ParseSigned(t) == None
  {
  }

  /** `int()` on text that has already been stripped. */
  function ParseSigned(t: string): Option<int>
  {
    var body := if t != [] && (t[0] == '+' || t[0] == '-') then t[1..] else t;
    if !IsDigitRun(body) then None
    else
      var magnitude: int := DigitsValue(body);
      Some(if t[0] == '-' then -magnitude else magnitude)
  }

  lemma ParseSignedHasDigit(t: string)
    ensures ParseSigned(t).Some? ==> exists i :: 0 <= i < |t| && IsDigit(t[i])
  {
    var body := if t != [] && (t[0] == '+' || t[0] == '-') then t[1..] else t;
    if IsDigitRun(body) {
      assert body[0] == t[|t| - |body|];
    }
  }

  lemma {:induction false} NatToStringValue(n: nat)
    ensures DigitsValue(NatToString(n)) == n
    decreases n
  {
    var r := NatToString(n);
    if n >= 10 {
      NatToStringValue(n / 10);
      assert r[..|r| - 1] == NatToString(n / 10);
    }
  }

  /** `str(n)` holds no space. */
  lemma IntToStringHasNoSpace(n: int)
    ensures ' ' !in IntToString(n)
  {
    var r := IntToString(n);
    forall i | 0 <= i < |r| ensures r[i] != ' ' {
      assert IsDigit(r[i]) || r[i] == '-';
    }
  }

  /** `str(n)` starts and ends with a digit or `-`, so `int()` skips
      nothing of it. */
  lemma IntToStringTrimmed(n: int)
    ensures Trim(IntToString(n)) == IntToString(n)
  {
    var r := IntToString(n);
    assert !IntSpace(r[0]) by {
      assert IsDigit(r[0]) || r[0] == '-';
    }
    assert !IntSpace(r[|r| - 1]) by {
      assert IsDigit(r[|r| - 1]) || r[|r| - 1] == '-';
    }
    assert TrimLeft(r) == r;
  }

  lemma ParseSignedDigits(m: nat)
    ensures ParseSigned(NatToString(m)) == Some(m)
  {
    var digits := NatToString(m);
    assert IsDigitRun(digits);
    NatToStringValue(m);
  }

  lemma ParseSignedMinusDigits(m: nat)
    ensures ParseSigned("-" + NatToString(m)) == Some(-(m as int))
  {
    var digits := NatToString(m);
    assert ("-" + digits)[1..] == digits;
    assert IsDigitRun(digits);
    NatToStringValue(m);
  }

  lemma ParseSignedIntToString(n: int)
    ensures ParseSigned(IntToString(n)) == Some(n)
  {
    if n < 0 {
      ParseSignedMinusDigits(-n);
    } else {
      ParseSignedDigits(n);
    }
  }

  /** Reading back what `str` wrote gives the number: `int(str(n)) == n`. */
  lemma ParseIntToString(n: int)
    ensures ParseInt(IntToString(n)) == Some(n)
  {
    IntToStringTrimmed(n);
    ParseSignedIntToString(n);
  }
}

=== FILE: pystr.dfy ===
/**
 * The parts of Python's `str` that the copy-writing core relies on:
 * `sep in s`, `s.split(sep)`, `sep.join(parts)`, `s.strip()` and `s.split()`.
 * Strings are sequences of Unicode scalar values; Python's `str` also
 * admits lone surrogates, which a browser text area cannot send.
 */
module PyStr {
  import opened Wrappers

  /** The characters for which Python's `str.isspace()` holds; `split()` and
      `strip()` without arguments separate and trim on exactly these. */
  predicate IsSpace(c: char) {
    || ('\U{9}' <= c <= '\U{D}')
    || ('\U{1C}' <= c <= '\U{20}')
    || c == '\U{85}' || c == '\U{A0}' || c == '\U{1680}'
    || ('\U{2000}' <= c <= '\U{200A}')
    || c == '\U{2028}' || c == '\U{2029}' || c == '\U{202F}' || c == '\U{205F}'
    || c == '\U{3000}'
  }

  // ---------------------------------------------------------------------
  // Substring search
  // ---------------------------------------------------------------------

  /** `pat` occurs in `s` starting at index `i`. */
  predicate OccursAt(s: string, pat: string, i: int) {
    0 <= i <= |s| - |pat| && s[i..i + |pat|] == pat
  }

  /** No occurrence of `pat` in `s` starts before index `n`. */
  predicate NoOccurrenceBefore(s: string, pat: string, n: int) {
    forall j :: 0 <= j < n ==> !OccursAt(s, pat, j)
  }

  lemma OccursAtShift(s: string, pat: string, j: nat)
    requires s != []
    ensures OccursAt(s, pat, j + 1) <==> OccursAt(s[1..], pat, j)
  {
    if j + 1 + |pat| <= |s| {
      assert s[j + 1..j + 1 + |pat|] == s[1..][j..j + |pat|];
    }
  }

  /** The index of the first occurrence of `pat` in `s` (`str.find`, with
      None where Python answers -1). */
  function Find(s: string, pat: string): (r: Option<nat>)
    ensures r.Some? ==> OccursAt(s, pat, r.value)
    ensures forall j :: 0 <= j && (r.None? || j < r.value) ==> !OccursAt(s, pat, j)
    decreases |s|
  {
    if |s| < |pat| then None
    else if s[..|pat|] == pat then Some(0)
    else
      assert !OccursAt(s, pat, 0) by {
        assert s[0..|pat|] == s[..|pat|];
      }
      assert forall j :: 1 <= j ==> (OccursAt(s, pat, j) <==> OccursAt(s[1..], pat, j - 1)) by {
        forall j | 1 <= j ensures OccursAt(s, pat, j) <==> OccursAt(s[1..], pat, j - 1) {
          OccursAtShift(s, pat, j - 1);
        }
      }
      match Find(s[1..], pat)
      case None => None
      case Some(k) => Some(k + 1)
  }

  /** Python's `pat in s`. */
  predicate Contains(s: string, pat: string) {
    Find(s, pat).Some?
  }

  /** `pat in s` holds exactly when `pat` occurs somewhere in `s`. */
  lemma ContainsIffOccurs(s: string, pat: string)
    ensures Contains(s, pat) <==> exists i :: OccursAt(s, pat, i)
  {
    if exists i :: OccursAt(s, pat, i) {
      var i :| OccursAt(s, pat, i);
      ContainsAt(s, pat, i);
    }
  }

  /** An occurrence anywhere means `pat in s` holds. */
  lemma ContainsAt(s: string, pat: string, i: int)
    requires OccursAt(s, pat, i)
    ensures Contains(s, pat)
  {
  }

  /** A string contains its own prefix `x`. */
  lemma ContainsStart(x: string, y: string)
    ensures Contains(x + y, x)
  {
    assert (x + y)[..|x|] == x;
    ContainsAt(x + y, x, 0);
  }

  /** A string contains every piece it is made of. */
  lemma ContainsMiddle(x: string, m: string, y: string)
    ensures Contains(x + m + y, m)
  {
    assert (x + m + y)[|x|..|x| + |m|] == m;
    ContainsAt(x + m + y, m, |x|);
  }

  /** Whatever is appended, what a string contains it still contains. */
  lemma ContainsExtends(s: string, t: string, pat: string)
    requires Contains(s, pat)
    ensures Contains(s + t, pat)
  {
    var i := Find(s, pat).value;
    assert (s + t)[i..i + |pat|] == s[i..i + |pat|];
    ContainsAt(s + t, pat, i);
  }

  /** A pattern starting at `j` in `s` lies wholly inside `s[..n]` when it
      ends by `n`, so it is found there too. */
  lemma OccursInPrefix(s: string, pat: string, n: int, j: int)
    requires 0 <= n <= |s| && j + |pat| <= n
    ensures OccursAt(s[..n], pat, j) <==> OccursAt(s, pat, j)
  {
    if 0 <= j {
      assert s[..n][j..j + |pat|] == s[j..j + |pat|];
    }
  }

  /** A string that lacks one of the characters of `pat` does not contain it. */
  lemma MissingCharacter(s: string, pat: string, k: int)
    requires 0 <= k < |pat| && pat[k] !in s
    ensures forall j :: !OccursAt(s, pat, j)
  {
    forall j ensures !OccursAt(s, pat, j) {
      if 0 <= j && j + |pat| <= |s| {
        assert s[j..j + |pat|][k] == s[j + k];
      }
    }
  }

  /** A seam that no occurrence of `pat` can cross: when `y` starts with a
      character that `pat` lacks, an occurrence in `x + y` lies wholly in `x`
      or wholly in `y`. So if there is none in `x` and none in `y` at
      `1..m-1`, there is none in `x + y` before `|x| + m`. */
  lemma Seam(x: string, y: string, pat: string, m: int)
    requires pat != [] && y != [] && y[0] !in pat
    requires forall j :: !OccursAt(x, pat, j)
    requires forall j :: 1 <= j < m ==> !OccursAt(y, pat, j)
    ensures forall j :: j < |x| + m ==> !OccursAt(x + y, pat, j)
    ensures m >= |y| ==> forall j :: !OccursAt(x + y, pat, j)
  {
    var s := x + y;
    forall j | j < |x| + m ensures !OccursAt(s, pat, j) {
      if 0 <= j && j + |pat| <= |s| {
        if j + |pat| <= |x| {
          assert s[j..j + |pat|] == x[j..j + |pat|];
          assert !OccursAt(x, pat, j);
        } else if j <= |x| {
          assert s[j..j + |pat|][|x| - j] == y[0];
          assert pat[|x| - j] in pat;
        } else {
          assert s[j..j + |pat|] == y[j - |x|..j - |x| + |pat|];
          assert !OccursAt(y, pat, j - |x|);
        }
      }
    }
  }

  /** When the first character of `pat` is not in `x`, no occurrence of
      `pat` in `x + y` starts inside `x`. */
  lemma FirstCharacterAbsent(x: string, y: string, pat: string)
    requires pat != [] && pat[0] !in x
    ensures NoOccurrenceBefore(x + y, pat, |x|)
  {
    forall j | 0 <= j < |x| ensures !OccursAt(x + y, pat, j) {
      if j + |pat| <= |x + y| {
        assert (x + y)[j..j + |pat|][0] == x[j];
      }
    }
  }

  /** When the only copy of `pat`'s first character in `x + m + y` opens
      `m`, and `m` does not open with `pat`, the string does not contain
      `pat`: every occurrence would have to start at that character. */
  lemma SingleHeadAbsent(x: string, m: string, y: string, pat: string)
    requires pat != [] && |pat| <= |m| && m[..|pat|] != pat
    requires pat[0] !in x && pat[0] !in m[1..] && pat[0] !in y
    ensures !Contains(x + m + y, pat)
  {
    var s := x + m + y;
    forall k | 0 <= k < |s| && k != |x| ensures s[k] != pat[0] {
      if k < |x| {
        assert s[k] == x[k];
      } else if k < |x| + |m| {
        assert s[k] == m[1..][k - |x| - 1];
      } else {
        assert s[k] == y[k - |x| - |m|];
      }
    }
    assert s[|x|..|x| + |pat|] == m[..|pat|];
    forall j | 0 <= j <= |s| - |pat| ensures !OccursAt(s, pat, j) {
      assert s[j..j + |pat|][0] == s[j];
    }
  }

  /** An occurrence of `pat` inside an occurrence of `mid` is an
      occurrence of `pat` in the whole string. */
  lemma OccursTransitive(s: string, mid: string, pat: string, i: int, j: int)
    requires OccursAt(s, mid, i) && OccursAt(mid, pat, j)
    ensures OccursAt(s, pat, i + j)
  {
    forall k | 0 <= k < |pat| ensures s[i + j + k] == pat[k] {
      assert pat[k] == mid[j..j + |pat|][k] == mid[j + k];
      assert mid[j + k] == s[i..i + |mid|][j + k];
    }
    assert s[i + j..i + j + |pat|] == pat;
  }

  /** Every character an occurrence covers is a character of `pat`. */
  lemma CoveredCharacter(s: string, pat: string, j: int, k: int)
    requires OccursAt(s, pat, j) && j <= k < j + |pat|
    ensures s[k] in pat
  {
    assert s[k] == s[j..j + |pat|][k - j];
  }

  /** An occurrence that ends inside `x` is an occurrence in `x`. */
  lemma OccursInFirst(x: string, rest: string, pat: string, j: int)
    requires OccursAt(x + rest, pat, j) && j + |pat| <= |x|
    ensures OccursAt(x, pat, j)
  {
    assert (x + rest)[j..j + |pat|] == x[j..j + |pat|];
  }

  /** Where an occurrence of `pat` in `x + m + y` can lie when `x` has
      none, `x` ends with a character `pat` lacks and `y` starts with one:
      wholly in `m` or wholly in `y`. */
  lemma SeamOccurrence(x: string, m: string, y: string, pat: string, j: int)
    requires pat != [] && x != [] && y != []
    requires x[|x| - 1] !in pat && y[0] !in pat
    requires forall k :: !OccursAt(x, pat, k)
    requires OccursAt(x + m + y, pat, j)
    ensures || (|x| <= j && OccursAt(m, pat, j - |x|))
            || (|x| + |m| <= j && OccursAt(y, pat, j - |x| - |m|))
  {
    var s := x + m + y;
    assert s == x + (m + y);
    if j + |pat| <= |x| {
      OccursInFirst(x, m + y, pat, j);
      assert false;
    } else if j < |x| {
      CoveredCharacter(s, pat, j, |x| - 1);
      assert false;
    } else if j < |x| + |m| < j + |pat| {
      CoveredCharacter(s, pat, j, |x| + |m|);
      assert false;
    } else if j < |x| + |m| {
      assert s[j..j + |pat|] == m[j - |x|..j - |x| + |pat|];
    } else {
      assert s[j..j + |pat|] == y[j - |x| - |m|..j - |x| - |m| + |pat|];
    }
  }

  /** Text glued between two seams that no occurrence of `pat` can cross:
      when `x` does not contain `pat`, ends with a character `pat` lacks,
      and `y` starts with one, `pat` occurs in `x + m + y` exactly when it
      occurs in `m` or in `y`. */
  lemma ContainsBetweenSeams(x: string, m: string, y: string, pat: string)
    requires pat != [] && x != [] && y != []
    requires x[|x| - 1] !in pat && y[0] !in pat
    requires forall k :: !OccursAt(x, pat, k)
    ensures Contains(x + m + y, pat) <==> Contains(m, pat) || Contains(y, pat)
  {
    var s := x + m + y;
    if Contains(m, pat) {
      var j := Find(m, pat).value;
      assert OccursAt(s, m, |x|) by {
        assert s[|x|..|x| + |m|] == m;
      }
      OccursTransitive(s, m, pat, |x|, j);
      ContainsAt(s, pat, |x| + j);
    } else if Contains(y, pat) {
      var j := Find(y, pat).value;
      assert OccursAt(s, y, |x| + |m|) by {
        assert s[|x| + |m|..] == y;
      }
      OccursTransitive(s, y, pat, |x| + |m|, j);
      ContainsAt(s, pat, |x| + |m| + j);
    } else if Contains(s, pat) {
      var j := Find(s, pat).value;
      SeamOccurrence(x, m, y, pat, j);
      if |x| + |m| <= j {
        ContainsAt(y, pat, j - |x| - |m|);
      } else {
        ContainsAt(m, pat, j - |x|);
      }
      assert false;
    }
  }

  // ---------------------------------------------------------------------
  // str.split(sep) and sep.join(parts)
  // ---------------------------------------------------------------------

  /** Python's `s.split(sep)` for a non-empty separator: the pieces between
      successive leftmost non-overlapping occurrences of `sep`. */
  function Split(s: string, sep: string): (parts: seq<string>)
    requires sep != []
    ensures 1 <= |parts|
    decreases |s|
  {
    match Find(s, sep)
    case None => [s]
    case Some(i) => [s[..i]] + Split(s[i + |sep|..], sep)
  }

  /** The split has a single piece exactly when the separator does not
      occur. */
  lemma SplitSinglePiece(s: string, sep: string)
    requires sep != []
    ensures |Split(s, sep)| == 1 <==> !Contains(s, sep)
  {
    if Contains(s, sep) {
      assert |Split(s[Find(s, sep).value + |sep|..], sep)| >= 1;
    }
  }

  /** Splitting at a found separator: the text before it, then the pieces
      of the text after it. */
  lemma SplitAfterFind(s: string, sep: string)
    requires sep != [] && Contains(s, sep)
    ensures var i := Find(s, sep).value;
      Split(s, sep) == [s[..i]] + Split(s[i + |sep|..], sep)
  {
  }

  /** Python's `sep.join(parts)`: it opens with the first part. */
  function Join(parts: seq<string>, sep: string): (r: string)
    ensures |parts| >= 1 ==> |parts[0]| <= |r| && r[..|parts[0]|] == parts[0]
    decreases |parts|
  {
    if |parts| == 0 then ""
    else if |parts| == 1 then parts[0]
    else parts[0] + sep + Join(parts[1..], sep)
  }

  /** A string is the part before a window, the window and the part after. */
  lemma Around(s: string, i: int, n: int)
    requires 0 <= i && 0 <= n && i + n <= |s|
    ensures s == s[..i] + s[i..i + n] + s[i + n..]
  {
    assert s == s[..i] + s[i..];
    assert s[i..] == s[i..][..n] + s[i..][n..];
    assert s[i..][..n] == s[i..i + n];
    assert s[i..][n..] == s[i + n..];
  }

  lemma JoinCons(head: string, tail: seq<string>, sep: string)
    requires tail != []
    ensures Join([head] + tail, sep) == head + sep + Join(tail, sep)
  {
    assert ([head] + tail)[1..] == tail;
  }

  /** Joining the pieces of a split with the same separator gives back the
      original string. */
  lemma {:induction false} SplitJoin(s: string, sep: string)
    requires sep != []
    ensures Join(Split(s, sep), sep) == s
    decreases |s|
  {
    var f := Find(s, sep);
    if f.Some? {
      var i := f.value;
      var rest := s[i + |sep|..];
      var tail := Split(rest, sep);
      SplitJoin(rest, sep);
      assert Split(s, sep) == [s[..i]] + tail;
      JoinCons(s[..i], tail, sep);
      Around(s, i, |sep|);
    }
  }

  /** The text before the first occurrence of `sep` does not contain it. */
  lemma HeadLacksSeparator(s: string, sep: string, i: nat)
    requires sep != [] && Find(s, sep) == Some(i)
    ensures !Contains(s[..i], sep)
  {
    if Contains(s[..i], sep) {
      var j := Find(s[..i], sep).value;
      OccursInPrefix(s, sep, i, j);
      assert false;
    }
  }

  /** No piece of a split contains the separator. */
  lemma {:induction false} SplitPiecesLackSeparator(s: string, sep: string)
    requires sep != []
    ensures forall k :: 0 <= k < |Split(s, sep)| ==> !Contains(Split(s, sep)[k], sep)
    decreases |s|
  {
    var f := Find(s, sep);
    if f.Some? {
      var i := f.value;
      var rest := s[i + |sep|..];
      var tail := Split(rest, sep);
      SplitPiecesLackSeparator(rest, sep);
      HeadLacksSeparator(s, sep, i);
      var parts := Split(s, sep);
      assert parts == [s[..i]] + tail;
      forall k | 0 <= k < |parts| ensures !Contains(parts[k], sep) {
        if k > 0 {
          assert parts[k] == tail[k - 1];
        }
      }
    }
  }

  /** When the first occurrence of `sep` in `x + sep + y` is the one after
      `x`, splitting yields `x` followed by the pieces of `y`. */
  lemma SplitAtFirst(x: string, sep: string, y: string)
    requires sep != []
    requires NoOccurrenceBefore(x + sep + y, sep, |x|)
    ensures Split(x + sep + y, sep) == [x] + Split(y, sep)
  {
    var s := x + sep + y;
    assert OccursAt(s, sep, |x|) by {
      assert s[|x|..|x| + |sep|] == sep;
    }
    assert Find(s, sep) == Some(|x|);
    assert s[..|x|] == x;
    assert s[|x| + |sep|..] == y;
  }

  /** If no occurrence of `sep` starts before `n`, the first piece of the
      split is a prefix of `s` at least `n` long. */
  lemma SplitHeadExtends(s: string, sep: string, n: int)
    requires sep != [] && 0 <= n <= |s|
    requires NoOccurrenceBefore(s, sep, n)
    ensures n <= |Split(s, sep)[0]| && Split(s, sep)[0] == s[..|Split(s, sep)[0]|]
  {
  }

  // ---------------------------------------------------------------------
  // str.strip()
  // ---------------------------------------------------------------------

  /** `s.lstrip()`: what is left after the leading whitespace. */
  function StripLeft(s: string): (r: string)
    ensures |r| <= |s| && r == s[|s| - |r|..]
    ensures forall i :: 0 <= i < |s| - |r| ==> IsSpace(s[i])
    ensures r == [] || !IsSpace(r[0])
    decreases |s|
  {
    if s != [] && IsSpace(s[0]) then StripLeft(s[1..]) else s
  }

  /** `s.rstrip()`: what is left after the trailing whitespace. */
  function StripRight(s: string): (r: string)
    ensures |r| <= |s| && r == s[..|r|]
    ensures forall i :: |r| <= i < |s| ==> IsSpace(s[i])
    ensures r == [] || !IsSpace(r[|r| - 1])
    decreases |s|
  {
    if s != [] && IsSpace(s[|s| - 1]) then StripRight(s[..|s| - 1]) else s
  }

  /** Python's `s.strip()`: the text between the leading and the trailing
      whitespace. It is empty exactly when `s` is whitespace only, and
      otherwise starts and ends with a non-space character. */
  function Strip(s: string): (r: string)
    ensures r == [] <==> forall i :: 0 <= i < |s| ==> IsSpace(s[i])
    ensures r != [] ==> !IsSpace(r[0]) && !IsSpace(r[|r| - 1])
  {
    var left := StripLeft(s);
    var r := StripRight(left);
    assert r != [] ==> r[0] == left[0];
    r
  }

  /** `s.strip()` removes whitespace from the two ends and nothing else: it
      is the slice of `s` that starts after the leading whitespace, and only
      whitespace follows it. */
  lemma {:induction false} StripRemovesOuterWhitespace(s: string)
    ensures var r := Strip(s); var i := |s| - |StripLeft(s)|;
      && i + |r| <= |s| && r == s[i..i + |r|]
      && (forall k :: 0 <= k < i ==> IsSpace(s[k]))
      && (forall k :: i + |r| <= k < |s| ==> IsSpace(s[k]))
  {
    var left := StripLeft(s);
    assert Strip(s) == StripRight(left);
    PrefixOfSuffix(s, left, StripRight(left));
  }

  /** A prefix `r` of a suffix `left` of `s` is a slice of `s`, and what
      follows `r` in `left` is what follows it in `s`. */
  lemma PrefixOfSuffix(s: string, left: string, r: string)
    requires |left| <= |s| && left == s[|s| - |left|..]
    requires |r| <= |left| && r == left[..|r|]
    requires forall j :: |r| <= j < |left| ==> IsSpace(left[j])
    ensures var i := |s| - |left|;
      && i + |r| <= |s| && r == s[i..i + |r|]
      && forall k :: i + |r| <= k < |s| ==> IsSpace(s[k])
  {
    var i := |s| - |left|;
    SliceOfSuffix(s, i, |r|);
    forall k | i + |r| <= k < |s| ensures IsSpace(s[k]) {
      assert s[k] == left[k - i];
    }
  }

  /** A prefix of a suffix is a slice. */
  lemma SliceOfSuffix(s: string, i: int, n: int)
    requires 0 <= i && 0 <= n && i + n <= |s|
    ensures s[i..][..n] == s[i..i + n]
  {
  }

  /** Stripping only removes characters. */
  lemma StripWithin(s: string)
    ensures forall i :: 0 <= i < |Strip(s)| ==> Strip(s)[i] in s
  {
    var left := StripLeft(s);
    var r := StripRight(left);
    forall i | 0 <= i < |r| ensures r[i] in s {
      assert r[i] == left[i] == s[|s| - |left| + i];
    }
  }

  /** A string that neither starts nor ends with whitespace is left alone. */
  lemma StripUnchanged(s: string)
    requires s != [] ==> !IsSpace(s[0]) && !IsSpace(s[|s| - 1])
    ensures Strip(s) == s
  {
  }

  /** Stripping twice is stripping once. */
  lemma StripIdempotent(s: string)
    ensures Strip(Strip(s)) == Strip(s)
  {
    StripUnchanged(Strip(s));
  }

  // ---------------------------------------------------------------------
  // str.split() without a separator
  // ---------------------------------------------------------------------

  /** A word in the sense of `str.split()`: non-empty, without whitespace. */
  predicate IsWord(w: string) {
    w != [] && forall i :: 0 <= i < |w| ==> !IsSpace(w[i])
  }

  /** The length of the run of non-space characters at the start of `s`. */
  function WordLen(s: string): (n: nat)
    ensures n <= |s|
    ensures forall i :: 0 <= i < n ==> !IsSpace(s[i])
    ensures n == |s| || IsSpace(s[n])
    decreases |s|
  {
    if s == [] || IsSpace(s[0]) then 0 else 1 + WordLen(s[1..])
  }

  /** The run length is determined by where the first space (or the end) is. */
  lemma WordLenAt(s: string, n: int)
    requires 0 <= n <= |s|
    requires forall i :: 0 <= i < n ==> !IsSpace(s[i])
    requires n == |s| || IsSpace(s[n])
    ensures WordLen(s) == n
  {
  }

  /** Python's `s.split()`: the maximal runs of non-space characters, in
      order; leading, trailing and repeated whitespace yield no empty words. */
  function Words(s: string): (ws: seq<string>)
    ensures forall k :: 0 <= k < |ws| ==> IsWord(ws[k])
    decreases |s|
  {
    if s == [] then []
    else if IsSpace(s[0]) then Words(s[1..])
    else
      var n := WordLen(s);
      [s[..n]] + Words(s[n..])
  }

  /** A word at the start of a string is the first of its words. */
  lemma WordsWordFirst(s: string)
    requires s != [] && !IsSpace(s[0])
    ensures Words(s) == [s[..WordLen(s)]] + Words(s[WordLen(s)..])
  {
  }

  /** A text has no words exactly when it is whitespace only (the empty
      text included). */
  lemma {:induction false} WordsNone(s: string)
    ensures Words(s) == [] <==> forall i :: 0 <= i < |s| ==> IsSpace(s[i])
    decreases |s|
  {
    if s != [] && IsSpace(s[0]) {
      WordsNone(s[1..]);
      assert forall i :: 1 <= i < |s| ==> s[i] == s[1..][i - 1];
      assert (forall i :: 0 <= i < |s| ==> IsSpace(s[i]))
        <==> (forall i :: 0 <= i < |s[1..]| ==> IsSpace(s[1..][i]));
    }
  }

  /** The first word of `x + c + y` ends inside `x` when `c` is a space. */
  lemma WordLenBeforeSpace(x: string, c: char, y: string)
    requires x != [] && !IsSpace(x[0]) && IsSpace(c)
    ensures 0 < WordLen(x) && WordLen(x + [c] + y) == WordLen(x)
  {
    var s := x + [c] + y;
    var m := WordLen(x);
    forall i | 0 <= i < m ensures !IsSpace(s[i]) {
      assert s[i] == x[i];
    }
    if m < |x| {
      assert s[m] == x[m];
    } else {
      assert s[m] == c;
    }
    WordLenAt(s, m);
  }

  /** A whitespace character separates the words before it from the words
      after it: `(x + c + y).split() == x.split() + y.split()`. Together
      with WordsNone and WordsOfWord this fixes the words of every text. */
  lemma {:induction false} WordsAtSpace(x: string, c: char, y: string)
    requires IsSpace(c)
    ensures Words(x + [c] + y) == Words(x) + Words(y)
    decreases |x|, 1
  {
    var s := x + [c] + y;
    if x == [] {
      assert s == [c] + y;
      assert s[1..] == y;
    } else if IsSpace(x[0]) {
      assert s[1..] == x[1..] + [c] + y;
      WordsAtSpace(x[1..], c, y);
    } else {
      WordsAtSpaceAfterWord(x, c, y);
    }
  }

  lemma {:induction false} WordsAtSpaceAfterWord(x: string, c: char, y: string)
    requires x != [] && !IsSpace(x[0]) && IsSpace(c)
    ensures Words(x + [c] + y) == Words(x) + Words(y)
    decreases |x|, 0
  {
    var s := x + [c] + y;
    var m := WordLen(x);
    var word, more := x[..m], x[m..];
    WordLenBeforeSpace(x, c, y);
    assert s[..m] == word;
    assert s[m..] == more + [c] + y;
    calc {
      Words(s);
    == { WordsWordFirst(s); }
      [word] + Words(more + [c] + y);
    == { WordsAtSpace(more, c, y); }
      [word] + (Words(more) + Words(y));
    ==
      ([word] + Words(more)) + Words(y);
    == { WordsWordFirst(x); }
      Words(x) + Words(y);
    }
  }

  /** Whitespace at the end of a string separates no further word. */
  lemma {:induction false} WordsDropLastSpace(s: string)
    requires s != [] && IsSpace(s[|s| - 1])
    ensures Words(s) == Words(s[..|s| - 1])
    decreases |s|
  {
    if |s| == 1 {
      assert s[1..] == [];
    } else if IsSpace(s[0]) {
      var t := s[..|s| - 1];
      WordsDropLastSpace(s[1..]);
      assert s[1..][..|s| - 2] == t[1..];
      assert Words(s) == Words(s[1..]);
      assert Words(t) == Words(t[1..]);
    } else {
      WordsDropLastSpaceAfterWord(s);
    }
  }

  /** Dropping a final space leaves the leading word as it was. */
  lemma WordLenDropLastSpace(s: string)
    requires |s| > 1 && IsSpace(s[|s| - 1])
    ensures WordLen(s) < |s| && WordLen(s[..|s| - 1]) == WordLen(s)
  {
    var t := s[..|s| - 1];
    var n := WordLen(s);
    assert IsSpace(s[|s| - 1]);
    forall i | 0 <= i < n ensures !IsSpace(t[i]) {
      assert t[i] == s[i];
    }
    if n < |t| {
      assert t[n] == s[n];
    }
    WordLenAt(t, n);
  }

  lemma {:induction false} WordsDropLastSpaceAfterWord(s: string)
    requires |s| > 1 && !IsSpace(s[0]) && IsSpace(s[|s| - 1])
    ensures Words(s) == Words(s[..|s| - 1])
    decreases |s|, 0
  {
    var t := s[..|s| - 1];
    var n := WordLen(s);
    WordLenDropLastSpace(s);
    var after := s[n..];
    assert after[..|after| - 1] == t[n..];
    WordsDropLastSpace(after);
    WordsWordFirst(s);
    WordsWordFirst(t);
    assert t[..n] == s[..n];
  }

  lemma {:induction false} WordsStripRight(s: string)
    ensures Words(StripRight(s)) == Words(s)
    decreases |s|
  {
    if s != [] && IsSpace(s[|s| - 1]) {
      WordsDropLastSpace(s);
      WordsStripRight(s[..|s| - 1]);
    }
  }

  lemma {:induction false} WordsStripLeft(s: string)
    ensures Words(StripLeft(s)) == Words(s)
    decreases |s|
  {
    if s != [] && IsSpace(s[0]) {
      WordsStripLeft(s[1..]);
    }
  }

  /** Stripping does not change the words of a text. */
  lemma WordsStrip(s: string)
    ensures Words(Strip(s)) == Words(s)
  {
    WordsStripLeft(s);
    WordsStripRight(StripLeft(s));
  }

  /** The words of a single word are that word. */
  lemma WordsOfWord(w: string)
    requires IsWord(w)
    ensures Words(w) == [w]
  {
    WordLenAt(w, |w|);
    assert w[..|w|] == w;
    assert w[|w|..] == [];
  }

  /** Splitting words joined by single spaces gives back those words:
      `" ".join(ws).split() == ws` whenever every element is a word. */
  lemma {:induction false} WordsOfJoin(ws: seq<string>)
    requires forall k :: 0 <= k < |ws| ==> IsWord(ws[k])
    ensures Words(Join(ws, " ")) == ws
    decreases |ws|
  {
    if |ws| == 0 {
    } else if |ws| == 1 {
      WordsOfWord(ws[0]);
    } else {
      var w, rest := ws[0], Join(ws[1..], " ");
      var s := w + " " + rest;
      assert Join(ws, " ") == s;
      assert s[|w|] == ' ';
      WordLenAt(s, |w|);
      assert s[..|w|] == w;
      assert s[|w|..] == " " + rest;
      assert (" " + rest)[1..] == rest;
      WordsOfJoin(ws[1..]);
      assert ws == [w] + ws[1..];
    }
  }

  /** Words joined by single spaces start with the first word's first
      character and end with the last word's last character. */
  lemma {:induction false} JoinOfWordsEnds(ws: seq<string>)
    requires |ws| >= 1 && forall k :: 0 <= k < |ws| ==> IsWord(ws[k])
    ensures var j := Join(ws, " "); var last := ws[|ws| - 1];
      ws[0] != [] && last != [] && j != [] && j[0] == ws[0][0] && j[|j| - 1] == last[|last| - 1]
    decreases |ws|
  {
    if |ws| >= 2 {
      JoinOfWordsEnds(ws[1..]);
      var rest := Join(ws[1..], " ");
      assert Join(ws, " ") == ws[0] + " " + rest;
    }
  }

  /** Words joined by single spaces have nothing for `strip()` to remove. */
  lemma JoinOfWordsIsStripped(ws: seq<string>)
    requires forall k :: 0 <= k < |ws| ==> IsWord(ws[k])
    ensures Strip(Join(ws, " ")) == Join(ws, " ")
  {
    var j := Join(ws, " ");
    if |ws| >= 1 {
      JoinOfWordsEnds(ws);
      var first, last := ws[0], ws[|ws| - 1];
      assert IsWord(first) && IsWord(last);
      assert !IsSpace(first[0]) && !IsSpace(last[|last| - 1]);
    }
    StripUnchanged(j);
  }
}

=== FILE: wrappers.dfy ===
/** Failure-carrying results: Python's exceptions become the Failure case. */
module Wrappers {

  datatype Option<+T> = None | Some(value: T)

  datatype Result<+R, +E> = Success(value: R) | Failure(error: E)
}
